=== FILE: README.md ===
# Prompt handler core, modelled in Dafny

The handler turns a free-text vehicle order prompt into a request body for
an ordering service. It does this in four steps:

- It finds the model-type codes the prompt names (`get_model_codes`).
- It finds the option abbreviations the prompt describes and joins them into a
  boolean formula (`get_boolean_formula`). In that formula `+` means "with",
  `-` means "without", `/` means "or", and brackets group keys.
- It finds the delivery date (`get_parsed_dates`).
- It gates everything behind a vocabulary check and a staged validation
  (`validator`). The final state is then rendered as one request, a list of
  requests, or an error message (`get_request_body`).

This project models that core as pure Dafny functions over immutable data.
It proves the properties the code promises about it.

Module layout, one file each:

| module | file | contents |
|---|---|---|
| `Wrappers` | wrappers.dfy | `Result`, for the exception paths |
| `Text` | text.dfy | the Python `str` operations the core uses, with Python's semantics: `lower`, `split()`, `join`, `in`, `replace`, `replace(…, 1)`, `strip` |
| `Fuzzy` | fuzzy.dfy | scores, `max`, and the "last index of the maximum" rule |
| `Catalogs` | catalogs.dfy | the two code-to-phrase dictionaries as ordered entry lists, including the handler's own entries |
| `Faults` | faults.dfy | the exceptions the core can raise |
| `Annotation` | annotation.dfy | the linguistic annotation the core reads: tokens, dependency arcs, entities, and the two regex splits |
| `ModelCodes` | model_codes.dfy | the exact pass and the fuzzy fallback of `get_model_codes` |
| `Abbreviations` | abbreviations.dfy | per-segment resolution of abbreviation keys |
| `Formula` | formula.dfy | cues, grouping mode, the assembly loop, and the completeness repair, plus a rank-based reference rendering and the theorem connecting the two |
| `Dates` | dates.dfy | the candidate entity, the day preference, and the kept date |
| `Validation` | validation.dfy | `validator` as a state transformer, the request body, and how a client reads it back |

Inputs that come from libraries are parameters of the model:

- the spaCy annotation;
- the regex splits;
- `fuzz.ratio` and `fuzz.partial_ratio`, as arbitrary functions into 0..100;
- `search_dates` together with `strftime`;
- the text of `str(e)`.

The constructor lower-cases the prompt (bmwgroupcodingtaskakash.py line 71).
The model receives that lower-cased prompt.

The formula stage chooses its bracket grouping by comparing the 0/1
`needed` flags of the first two `cc` arcs (line 333), not their widths. So
two wide arcs give the first grouping even when the first arc is wider.
`Formula.FlagsNotWidths` exhibits this case.

`Formula.Separated` is the condition the bracket theorems need. It holds when
no key of the match list contains a bracket or operator character, no key
occurs inside another, and no key straddles the point where two others are
joined.

## Model

| member | source | states |
|---|---|---|
| Text.RemoveAll | bmwgroupcodingtaskakash.py:213 | `replace(p, "")` never lengthens the text. It leaves the text unchanged when `p` does not occur. It strictly shortens the text when a non-empty `p` occurs. |
| Text.RemoveAllSplices | bmwgroupcodingtaskakash.py:213 | `replace(p, "")` keeps the text before the leftmost occurrence of `p`, drops that occurrence, and goes on the same way after it. |
| Text.RemoveFirstSplices | bmwgroupcodingtaskakash.py:315 | `replace(w, "", 1)` deletes exactly the leftmost occurrence of `w` and joins the text around it. |
| Text.StripLeft | bmwgroupcodingtaskakash.py:494 | `lstrip` removes exactly a maximal prefix made of the stripped characters. |
| Text.StripRight | bmwgroupcodingtaskakash.py:494 | `rstrip` removes exactly a maximal suffix made of the stripped characters. |
| Fuzzy.BestIndex | bmwgroupcodingtaskakash.py:308 | The chosen index holds the maximum score, and every later score is strictly smaller. Ties go to the last best entry. |
| Fuzzy.MaxIsPerfect | bmwgroupcodingtaskakash.py:223 | `max(scores) == 100` holds exactly when some score is 100. |
| Catalogs.KeysWithPhrase | bmwgroupcodingtaskakash.py:210-212 | A key is collected exactly when its entry carries the phrase. A phrase carried by some entry yields at least one key. |
| Catalogs.KeysWithOwnPhrase | bmwgroupcodingtaskakash.py:208-212 | When phrases are distinct, looking up an entry's phrase yields exactly that entry's key. |
| Catalogs.HandlerCatalogsDistinct | bmwgroupcodingtaskakash.py:81-99 | Neither of the handler's dictionaries has two entries with the same phrase. |
| ModelCodes.ExactFrom | bmwgroupcodingtaskakash.py:208-213 | The exact pass reports only catalog keys and never lengthens the text. With non-empty phrases, it reports nothing exactly when it removes nothing. |
| ModelCodes.ExactNothingFound | bmwgroupcodingtaskakash.py:208-213 | When no remaining phrase occurs in the lower-cased text, the exact pass reports nothing and leaves the text as it is. |
| ModelCodes.ExactReportsFound | bmwgroupcodingtaskakash.py:208-212 | When an entry's phrase occurs, the pass reports every key with that phrase first, in dictionary order, the entry's own key among them. |
| ModelCodes.ExactInCatalogOrder | bmwgroupcodingtaskakash.py:208-213 | When phrases are distinct, the exact pass reports each key at most once, in dictionary order. |
| ModelCodes.HandlerExactInOrder | bmwgroupcodingtaskakash.py:81-88 | On the handler's model-code dictionary, the exact pass reports each code at most once, in dictionary order. |
| ModelCodes.FallbackFrom | bmwgroupcodingtaskakash.py:217-228 | The fallback raises (empty `max`) exactly when no words remain and some phrase has a word. |
| ModelCodes.FallbackHits | bmwgroupcodingtaskakash.py:218-228 | The fallback reports a key exactly when the first word of that key's phrase scores 100 against some remaining word. |
| ModelCodes.ModelCodes | bmwgroupcodingtaskakash.py:200-233 | The method fails exactly when text remains after the exact pass, that text has no words once commas are removed, and some phrase has a word. Otherwise the exact keys come first. Nothing follows them when no text remains. |
| ModelCodes.ModelCodesReport | bmwgroupcodingtaskakash.py:206-228 | A key is reported exactly when the exact pass names it, or when text remains and the fallback reports it. |
| Abbreviations.PickBest | bmwgroupcodingtaskakash.py:298-315 | One round picks a catalog key. The remaining segment is never longer, and it is unchanged unless it got shorter. |
| Abbreviations.PickBestChoice | bmwgroupcodingtaskakash.py:304-315 | The picked entry has the maximal score and no later entry ties it. The round deletes the first occurrence of each word of that entry's phrase. |
| Abbreviations.StuckLoopNeverEnds | bmwgroupcodingtaskakash.py:296-315 | Suppose the best score reaches 85 but the deletions leave the segment unchanged. Then the loop as written never finishes, whatever the number of rounds. |
| Abbreviations.LeftHandDriveSpins | bmwgroupcodingtaskakash.py:296-315 | Take the segment "lefthand" and the phrase "Left-Hand Drive". If the score reaches 85, the loop as written spins, while the corrected loop yields "LL". |
| Abbreviations.Resolve | bmwgroupcodingtaskakash.py:295-318 | The corrected loop fails (empty `max`) exactly on an empty catalog. Below the threshold it keeps the current key. Otherwise it yields a catalog key. |
| Abbreviations.ResolveAgrees | bmwgroupcodingtaskakash.py:296-315 | Whenever the loop as written finishes, the corrected loop gives the same result. |
| Abbreviations.Slot | bmwgroupcodingtaskakash.py:293-318 | A segment yields "" or a catalog key. With non-empty keys, it yields "" exactly when no phrase reaches the threshold on the whitespace-free segment. |
| Abbreviations.Slots | bmwgroupcodingtaskakash.py:292-318 | The match list has one slot per segment, in order. It fails exactly when the catalog is empty and there is a segment. |
| Formula.DescriptiveMembers | bmwgroupcodingtaskakash.py:271 | A token's text is kept exactly when some token with that text has a descriptive part of speech (PROPN, NOUN, VERB, ADJ, CCONJ, PUNCT). |
| Formula.DescriptiveAppend | bmwgroupcodingtaskakash.py:271 | The kept texts are in token order: one more token adds its text at the end exactly when its part of speech is descriptive. |
| Formula.DescriptionAppend | bmwgroupcodingtaskakash.py:271 | The description string joins the kept texts with single spaces: one more descriptive token adds " " and its text, or just its text when nothing was kept before. |
| Formula.Cues | bmwgroupcodingtaskakash.py:275 | The cues are texts from "and", "or", ",", ".". There are none exactly when no token is a `cc`/`punct` cue. |
| Formula.CuesAppend | bmwgroupcodingtaskakash.py:275 | The cues are the cue tokens' own texts in token order: one more token adds its text at the end exactly when it is a `cc`/`punct` token whose text is a cue word. |
| Formula.CcArcsAppend | bmwgroupcodingtaskakash.py:328 | The bracket arcs are the arcs labelled `cc`, in arc order: one more arc joins at the end exactly when it is labelled `cc`. |
| Formula.GroupingMode | bmwgroupcodingtaskakash.py:325-336 | Brackets are used only when the cues hold both "and" and "or". Then the mode fails exactly with fewer than two `cc` arcs. The second grouping is chosen exactly when the first `cc` arc is wide and the second is not. |
| Formula.FlagsNotWidths | bmwgroupcodingtaskakash.py:330-336 | Two wide arcs give the first grouping, even when the first is wider. |
| Formula.NextPolarity | bmwgroupcodingtaskakash.py:359-364 | A "without" synonym gives "-", and it wins over a "with" synonym, which gives "+". Otherwise the polarity is kept. |
| Formula.PolarityAfter | bmwgroupcodingtaskakash.py:350-364 | The carried polarity is always "", "+" or "-". |
| Formula.Step | bmwgroupcodingtaskakash.py:352-401 | One iteration succeeds exactly when the cue and match-list lookups are in range; otherwise it raises an index error. It extends the formula, leaves it unchanged for an empty slot, and carries the next polarity. |
| Formula.Assemble | bmwgroupcodingtaskakash.py:350-401 | The loop succeeds exactly when there are no more segments than slots, nor than cues plus one. It ends with the polarity of all segments. |
| Formula.AssembleByRank | bmwgroupcodingtaskakash.py:366-401 | Under `Separated`, the loop's bracket counters place brackets by key rank. In the first grouping "(" opens before the 1st key and ")" closes after the 2nd. In the second grouping they go before the 2nd and after the 3rd. |
| Formula.RenderedKeys | bmwgroupcodingtaskakash.py:369-394 | Under `Separated`, a non-empty key of the match list occurs in the partial formula exactly when its own segment has been emitted. This is what the `itm in boolean_formula` counts measure. |
| Formula.RepeatedKeyCountsTwice | bmwgroupcodingtaskakash.py:387-388 | A key the match list holds at two positions is counted twice once it occurs in the formula, so the first grouping's closing test (count 1) fails from then on. |
| Formula.RenderedCounts | bmwgroupcodingtaskakash.py:366-400 | The formula holds one "(" once the opening key is emitted and one ")" once the closing key is. It holds one "/" per key that follows an "or" cue. |
| Formula.BracketsBalance | bmwgroupcodingtaskakash.py:366-400 | Under `Separated`, brackets balance exactly when the group is complete. A lone key in the first grouping, or exactly two keys in the second, leaves "(" open. |
| Formula.RepairLoop | bmwgroupcodingtaskakash.py:404-407 | The repair raises exactly on an empty formula with a non-empty entry missing. Otherwise it extends the formula until every entry occurs in it. A missing first entry is appended after a copy of the formula's first character. |
| Formula.Repair | bmwgroupcodingtaskakash.py:403-407 | The repair changes nothing when every entry already occurs. It has the same failure and coverage guarantees as the loop. |
| Formula.BooleanFormula | bmwgroupcodingtaskakash.py:258-418 | No tokens raise on the missing column. An empty catalog with a segment raises on `max`. A success covers every slot of the match list; the grouping failure is stated by `Formula.GroupingRaises`. |
| Formula.FormulaByRank | bmwgroupcodingtaskakash.py:280-407 | With separated keys, one slot per prompt segment, and enough cues, the whole method returns the rank-bracketed rendering, and the repair adds nothing. |
| Formula.GroupingRaises | bmwgroupcodingtaskakash.py:326-333 | When the cues hold both "and" and "or" but fewer than two `cc` arcs exist, the method raises on the missing `label` column (no arcs) or on the out-of-range flag lookup. |
| Formula.NoCuesSingleKey | bmwgroupcodingtaskakash.py:339-407 | Without cues, the formula is the prompt's polarity followed by the single resolved key, or "" when no key matched. |
| Formula.NoCuesNoOperators | bmwgroupcodingtaskakash.py:339-400 | Without cues, and with symbol-free keys, the formula has no "/", "(" or ")". |
| Formula.TooManySegments | bmwgroupcodingtaskakash.py:352-366 | More prompt segments than slots, or than cues plus one, end in an index error. |
| Formula.HandlerKeysApart | bmwgroupcodingtaskakash.py:90-99 | A match list of the handler's abbreviation keys that repeats no key is `Separated`. |
| Formula.HandlerBracketsBalance | bmwgroupcodingtaskakash.py:366-400 | With the handler's abbreviation keys and no repeated key, brackets balance exactly when the group is complete. |
| Dates.Candidates | bmwgroupcodingtaskakash.py:440 | The candidate list is empty exactly when no entity is labelled DATE or CARDINAL. |
| Dates.Preference | bmwgroupcodingtaskakash.py:443-447 | The last day of the month is preferred exactly when "late", "latter" or "end" is a whitespace-separated word of the prompt. |
| Dates.ParsedDate | bmwgroupcodingtaskakash.py:438-456 | A date is found exactly when there is a candidate and searching the last candidate finds dates; the kept date is the last one found. A search returning nothing is the "not subscriptable" error. |
| Dates.LastEntityDecides | bmwgroupcodingtaskakash.py:440-450 | Only the last date-like entity matters. A trailing non-date entity changes nothing, and a trailing date-like entity decides alone. |
| Validation.KnownTextHolds | bmwgroupcodingtaskakash.py:143 | The known text holds every lower-cased model phrase. |
| Validation.KnownTextStraddles | bmwgroupcodingtaskakash.py:143 | As the phrases are joined without a separator, "50ix" counts as known although it occurs in no lower-cased model phrase. |
| Validation.Vocabulary | bmwgroupcodingtaskakash.py:141-148 | The vocabulary scan touches only the flag and the message. It only appends to the message, after ". ". |
| Validation.VocabularyOutcome | bmwgroupcodingtaskakash.py:141-148 | The scan accepts exactly when the first OOV token, if any, occurs in the known phrase text and a token precedes it. It appends the OOV message exactly when that token is unknown. |
| Validation.ModelStage | bmwgroupcodingtaskakash.py:150-156 | This stage passes a failed state through and only appends to the message. It accepts exactly on a non-empty code list. On an exception (lines 235-240) it appends the method's error message and the error text, and then, as the code list is still empty, the stage's own message. An empty list appends the stage's own message alone. |
| Validation.FormulaStage | bmwgroupcodingtaskakash.py:158-164 | This stage passes a failed state through and only appends to the message. It accepts exactly on a non-empty formula. On an exception (lines 415-421) it clears the formula and appends the method's error message, the error text and the stage's own message. An empty formula appends the stage's own message alone. |
| Validation.DateStage | bmwgroupcodingtaskakash.py:166-172 | This stage passes a failed state through and only appends to the message. It accepts exactly on a non-empty date. On an exception (lines 458-463) it appends the method's error message and the error text, and then, when the date is still empty, the stage's own message. An empty date appends the stage's own message alone. |
| Validation.Validate | bmwgroupcodingtaskakash.py:139-175 | Along the pipeline the message only grows, and every addition starts with ". ". An accepted prompt leaves no message and non-empty codes, formula and date. |
| Validation.ValidateOutcome | bmwgroupcodingtaskakash.py:139-175 | Validation accepts exactly when the vocabulary scan accepts and every stage yields a non-empty result. An accepted state holds those results and no message. |
| Validation.ModelCodesRaised | bmwgroupcodingtaskakash.py:150-156 | When the vocabulary scan accepts and the model-code method raises (lines 235-240), the message is the method's error message, the error text and the missing-model-code message, in that order. |
| Validation.SilentRejection | bmwgroupcodingtaskakash.py:141-148 | A rejection with an empty message happens exactly when the prompt has no tokens, or its first token is OOV but occurs in the known phrase text. |
| Validation.UnknownWordRejects | bmwgroupcodingtaskakash.py:141-147 | An unknown OOV word stops validation. Its message is then the only one. |
| Validation.RequestBody | bmwgroupcodingtaskakash.py:479-494 | A failed state gives the stripped message. One code gives a bare request. Several codes give one request per code. |
| Validation.RequestBodyRoundTrip | bmwgroupcodingtaskakash.py:480-494 | A client reading the body gets back exactly the state's codes, formula and date, or the stripped message. |
| Validation.StripSeparated | bmwgroupcodingtaskakash.py:494 | `strip(". ")` removes exactly the leading separator from a single appended message. |
| Validation.UnknownWordBody | bmwgroupcodingtaskakash.py:493-494 | For an unknown OOV word, the body is exactly the message naming that word. |

## Left out

- The spaCy pipeline (`get_doc`, tokenisation, POS tags, dependency arcs, OOV flags, entities) and `displacy.parse_deps`: these are a trained model. The annotation is an input (`Annotation.Doc`). The pandas frames built from it are modelled as the sequences they filter.
- The regex splits on the cue words (lines 284-289 and 343-348): they are inputs (`Annotation.Splits`), because the model does not interpret regular expressions. Both splits are supplied, one of the description string and one of the prompt.
- `fuzz.ratio` and `fuzz.partial_ratio`: they are parameters (`Fuzzy.Scorer`), any function into 0..100. No property depends on their internals.
- `search_dates` and `strftime('%Y-%m-%d')`: together they are a parameter (`Dates.DateSearch`) that returns formatted dates or nothing. Calendar arithmetic is not modelled.
- The text of `str(e)`: it is a parameter `detail: Fault -> string`. The kind of exception is modelled (`Faults.Fault`).
- The outer `except` of `validator` (lines 177-182): every stage catches its own exceptions, and the request body built at line 175 is discarded. So what remains is a failure of the annotation itself, which is outside the model.
- The recursive retry in `get_request_body` (lines 496-501): building the body from a state cannot raise in the model, so the retry is unreachable.
- The interactive loop (lines 504-519) and warning suppression (line 20): these are I/O and have no behaviour to model.
- Lower-casing is ASCII-only (`Text.LowerChar`); Python's Unicode case mapping is not modelled. Whitespace for `split()` is the ASCII set plus the information separators, NEL and NBSP; other Unicode spaces are not modelled.
- `response` is modelled as a boolean, and the Python dict/list body as the `Validation.Body` datatype.
- Formula.AssembleByRank: the bracket theorem is stated only under `Separated`. Without it, the code's `itm in boolean_formula` counts can be fooled by a key occurring inside another key, inside the operators, or across two joined keys. `Formula.HandlerKeysApart` shows the handler's own keys meet it; what stays unproved is a match list that repeats a key. The code counts such a key once per position, so once it occurs the bracket counts jump by two (`Formula.RepeatedKeyCountsTwice`). This matters only when the repeated key is emitted before the group closes: in the first grouping, slots S403A, P337A, S403A open "(" before the first S403A and never close it, while S403A, P337A, P337A still give a balanced formula.
- Formula.BracketsBalance: holds under `Separated` only, so for the handler's keys it is not promised when two segments resolve to the same key (`Formula.HandlerBracketsBalance` covers the rest). In that case the first grouping's "(" stays open when the repeated key is emitted before the group closes (S403A, P337A, S403A), since the count then passes 1; a key repeated only after the close leaves the brackets balanced.
- Formula.FormulaByRank: requires `Separated` of the resolved match list, so a prompt whose segments resolve to the same key twice is not covered; its formula may differ from the rank-bracketed rendering, for example by an unclosed "(" in the first grouping when the first key recurs later.
- Abbreviations.Slot: `Slot`, `Slots` and `Formula.BooleanFormula` use the corrected loop `Abbreviations.Resolve`, which stops when a round removes nothing. The program as written never returns on such a stuck segment, for example "left hand drive": squashed to "lefthanddrive", one round deletes "drive" and leaves "lefthand", which no later round changes (see Findings); `Abbreviations.ResolveAgrees` shows the two agree whenever the original finishes.
- Dates.ParsedDate: the search is a parameter, so the contract names the kept date only relative to what the search returns.
- The unbalanced brackets that `Formula.BracketsBalance` characterises are reported as a proved property, not as a finding: the code gives no single evidently intended correction.

## Findings

| source | as written | input that shows it | evidently intended | confidence | as-written member | corrected member |
|---|---|---|---|---|---|---|
| bmwgroupcodingtaskakash.py:296-315 | `while True` repeats as long as the best partial score is at least 85. The only progress is deleting the first occurrence of each word of the best phrase from the segment. If none of those words occurs, the segment never changes and the loop never ends. | segment "lefthand" (what a first round leaves of "left hand drive" once whitespace is removed and "drive" deleted) against "Left-Hand Drive", whose squashed form "left-handdrive" scores at least 85 under `partial_ratio`. Neither "left-hand" nor "drive" occurs in "lefthand". | stop when a round removes nothing, keeping the key just picked | medium, not executed | Abbreviations.LeftHandDriveSpins | Abbreviations.ResolveAgrees |

=== FILE: abbreviations.dfy ===
/** Per-segment abbreviation resolution of `Handler.get_boolean_formula`
    (bmwgroupcodingtaskakash.py lines 292-318): each segment of the filtered description yields
    exactly one slot, a catalog key or the empty string. */
module Abbreviations {
  import opened Wrappers
  import opened Text
  import opened Fuzzy
  import opened Catalogs
  import opened Faults

  /** Scores below this end the search in a segment. */
  const Threshold := 85

  /** `value.lower().replace(' ', '')`: the phrase as compared with a segment. */
  function Squashed(phrase: string): string {
    RemoveAll(Lower(phrase), " ")
  }

  /** The partial-overlap score of every catalog phrase against the segment,
      in catalog order. */
  function PhraseScores(abbrs: Catalog, partial: Scorer, segment: string): (scores: seq<int>)
    ensures |scores| == |abbrs|
  {
    seq(|abbrs|, i requires 0 <= i < |abbrs| => partial(Squashed(abbrs[i].phrase), segment))
  }

  /** What one round of the loop picks, and the segment it leaves. */
  datatype Pick = Pick(key: string, rest: string)

  /** One round: the key of the best-scoring phrase, and the segment with the
      first occurrence of each of that phrase's words deleted. */
  function PickBest(abbrs: Catalog, partial: Scorer, segment: string): (p: Pick)
    requires |abbrs| > 0
    ensures |p.rest| <= |segment|
    ensures |p.rest| == |segment| ==> p.rest == segment
    ensures p.key in Keys(abbrs)
  {
    var k := BestIndex(PhraseScores(abbrs, partial, segment));
    Pick(abbrs[k].key, RemoveEachFirst(segment, Words(Lower(abbrs[k].phrase))))
  }

  /** The entry a round picks attains the best score, every later entry scores
      strictly less (ties go to the last best entry), and the round deletes the
      first occurrence of each word of that entry's phrase. */
  lemma PickBestChoice(abbrs: Catalog, partial: Scorer, segment: string)
    requires |abbrs| > 0
    ensures var scores := PhraseScores(abbrs, partial, segment);
      var p := PickBest(abbrs, partial, segment);
      exists k :: 0 <= k < |abbrs|
        && p.key == abbrs[k].key
        && p.rest == RemoveEachFirst(segment, Words(Lower(abbrs[k].phrase)))
        && scores[k] == Max(scores)
        && forall j :: k < j < |abbrs| ==> scores[j] < scores[k]
  {
    var k := BestIndex(PhraseScores(abbrs, partial, segment));
    assert 0 <= k < |abbrs|;
  }

  /** The loop as written: it runs while the best score reaches the threshold,
      whatever the deletions did to the segment. `fuel` bounds the number of
      rounds; `StillLooping` means the rounds ran out. */
  datatype Run = Finished(result: Result<string, Fault>) | StillLooping

  function ResolveAsWritten(abbrs: Catalog, partial: Scorer, segment: string, key: string, fuel: nat): Run
    decreases fuel
  {
    if |abbrs| == 0 then Finished(Failure(EmptyMax))
    else if Max(PhraseScores(abbrs, partial, segment)) < Threshold then Finished(Success(key))
    else if fuel == 0 then StillLooping
    else
      var p := PickBest(abbrs, partial, segment);
      ResolveAsWritten(abbrs, partial, p.rest, p.key, fuel - 1)
  }

  /** A segment on which a round changes nothing although the best score
      reaches the threshold. */
  predicate Stuck(abbrs: Catalog, partial: Scorer, segment: string) {
    |abbrs| > 0
    && Max(PhraseScores(abbrs, partial, segment)) >= Threshold
    && PickBest(abbrs, partial, segment).rest == segment
  }

  /** On a stuck segment the loop as written never ends. */
  lemma {:induction false} StuckLoopNeverEnds(abbrs: Catalog, partial: Scorer, segment: string, key: string, fuel: nat)
    requires Stuck(abbrs, partial, segment)
    ensures ResolveAsWritten(abbrs, partial, segment, key, fuel) == StillLooping
    decreases fuel
  {
    if fuel > 0 {
      StuckLoopNeverEnds(abbrs, partial, segment, PickBest(abbrs, partial, segment).key, fuel - 1);
    }
  }

  /** The loop with the termination it evidently relies on: a round that
      leaves the segment unchanged ends the search, keeping the key it picked. */
  function Resolve(abbrs: Catalog, partial: Scorer, segment: string, key: string): (r: Result<string, Fault>)
    ensures r.Failure? <==> |abbrs| == 0
    ensures r.Failure? ==> r.error == EmptyMax
    ensures r.Success? && Max(PhraseScores(abbrs, partial, segment)) < Threshold ==> r.value == key
    ensures r.Success? && Max(PhraseScores(abbrs, partial, segment)) >= Threshold ==> r.value in Keys(abbrs)
    decreases |segment|
  {
    if |abbrs| == 0 then Failure(EmptyMax)
    else if Max(PhraseScores(abbrs, partial, segment)) < Threshold then Success(key)
    else
      var p := PickBest(abbrs, partial, segment);
      if |p.rest| < |segment| then Resolve(abbrs, partial, p.rest, p.key) else Success(p.key)
  }

  /** One round of the terminating loop, for a segment that reaches the threshold. */
  lemma ResolveRound(abbrs: Catalog, partial: Scorer, segment: string, key: string)
    requires |abbrs| > 0 && Max(PhraseScores(abbrs, partial, segment)) >= Threshold
    ensures var p := PickBest(abbrs, partial, segment);
      Resolve(abbrs, partial, segment, key) == if |p.rest| < |segment| then Resolve(abbrs, partial, p.rest, p.key) else Success(p.key)
  {
  }

  /** One round of the loop as written, for a segment that reaches the threshold. */
  lemma ResolveAsWrittenRound(abbrs: Catalog, partial: Scorer, segment: string, key: string, fuel: nat)
    requires |abbrs| > 0 && Max(PhraseScores(abbrs, partial, segment)) >= Threshold && fuel > 0
    ensures var p := PickBest(abbrs, partial, segment);
      ResolveAsWritten(abbrs, partial, segment, key, fuel) == ResolveAsWritten(abbrs, partial, p.rest, p.key, fuel - 1)
  {
  }

  /** Wherever the loop as written ends, the terminating loop gives the same
      slot. */
  lemma {:induction false} ResolveAgrees(abbrs: Catalog, partial: Scorer, segment: string, key: string, fuel: nat)
    ensures ResolveAsWritten(abbrs, partial, segment, key, fuel).Finished? ==>
      Resolve(abbrs, partial, segment, key) == ResolveAsWritten(abbrs, partial, segment, key, fuel).result
    decreases fuel
  {
    if |abbrs| == 0 {
      assert Resolve(abbrs, partial, segment, key) == Failure(EmptyMax);
    } else if Max(PhraseScores(abbrs, partial, segment)) < Threshold {
      assert Resolve(abbrs, partial, segment, key) == Success(key);
    } else if fuel > 0 {
      var p := PickBest(abbrs, partial, segment);
      ResolveAsWrittenRound(abbrs, partial, segment, key, fuel);
      ResolveRound(abbrs, partial, segment, key);
      if |p.rest| < |segment| {
        ResolveAgrees(abbrs, partial, p.rest, p.key, fuel - 1);
      } else {
        assert Stuck(abbrs, partial, segment);
        StuckLoopNeverEnds(abbrs, partial, segment, key, fuel);
      }
    }
  }

  lemma LeftHandDriveLower()
    ensures Lower("Left-Hand Drive") == "left-hand" + " " + "drive"
  {
    assert Lower("Left-Hand Drive") == "left-hand drive";
  }

  lemma LeftHandDriveAreWords()
    ensures IsWord("left-hand") && IsWord("drive")
  {
    var a, b := "left-hand", "drive";
    assert forall i :: 0 <= i < |a| ==> 'a' <= a[i] <= 'z' || a[i] == '-';
    assert forall i :: 0 <= i < |b| ==> 'a' <= b[i] <= 'z';
  }

  lemma LeftHandDriveWords()
    ensures Words(Lower("Left-Hand Drive")) == ["left-hand", "drive"]
  {
    LeftHandDriveLower();
    LeftHandDriveAreWords();
    WordsOfSpaced("left-hand", "drive");
    WordsOfWord("drive");
  }

  lemma LeftHandDriveAbsent()
    ensures RemoveEachFirst("lefthand", ["left-hand", "drive"]) == "lefthand"
  {
    var s := "lefthand";
    assert !IsSubstring("left-hand", s);
    forall i | 0 <= i <= |s|
      ensures !OccursAt("drive", s, i)
    {
      if i + 5 <= |s| {
        assert s[i..i + 5][0] == s[i];
      }
    }
    assert RemoveFirst(s, "left-hand") == s;
    assert RemoveFirst(s, "drive") == s;
  }

  /** "Left-Hand Drive" scored against the segment "lefthand": neither
      "left-hand" nor "drive" occurs in it, so with a score of 85 or more the
      loop as written spins forever, while the terminating loop yields "LL". */
  lemma LeftHandDriveSpins(partial: Scorer, fuel: nat)
    requires partial(Squashed("Left-Hand Drive"), "lefthand") >= Threshold
    ensures ResolveAsWritten([Entry("LL", "Left-Hand Drive")], partial, "lefthand", "", fuel) == StillLooping
    ensures Resolve([Entry("LL", "Left-Hand Drive")], partial, "lefthand", "") == Success("LL")
  {
    var abbrs := [Entry("LL", "Left-Hand Drive")];
    LeftHandDriveWords();
    LeftHandDriveAbsent();
    assert PhraseScores(abbrs, partial, "lefthand")[0] >= Threshold;
    assert PickBest(abbrs, partial, "lefthand") == Pick("LL", "lefthand");
    StuckLoopNeverEnds(abbrs, partial, "lefthand", "", fuel);
    ResolveRound(abbrs, partial, "lefthand", "");
  }

  /** The slot of one raw segment: its whitespace is removed and the search
      starts with no key. */
  function Slot(abbrs: Catalog, partial: Scorer, segment: string): (r: Result<string, Fault>)
    ensures r.Failure? <==> |abbrs| == 0
    ensures r.Success? ==> r.value == "" || r.value in Keys(abbrs)
    ensures r.Success? && (forall i :: 0 <= i < |abbrs| ==> abbrs[i].key != "") ==>
      (r.value == "" <==> Max(PhraseScores(abbrs, partial, RemoveWhitespace(segment))) < Threshold)
  {
    Resolve(abbrs, partial, RemoveWhitespace(segment), "")
  }

  /** The match list: one slot per segment, in order. */
  function Slots(abbrs: Catalog, partial: Scorer, segments: seq<string>): (r: Result<seq<string>, Fault>)
    ensures r.Failure? <==> |abbrs| == 0 && |segments| > 0
    ensures r.Success? ==> |r.value| == |segments|
    ensures r.Success? ==> forall i :: 0 <= i < |segments| ==> Slot(abbrs, partial, segments[i]) == Success(r.value[i])
  {
    if |segments| == 0 then Success([])
    else
      var first :- Slot(abbrs, partial, segments[0]);
      var rest := Slots(abbrs, partial, segments[1..]).value;
      assert forall i :: 1 <= i < |segments| ==> segments[1..][i - 1] == segments[i];
      Success([first] + rest)
  }
}

=== FILE: annotation.dfy ===
/** What the linguistic annotator hands the handler, as plain records: the
    tokens with their part-of-speech and dependency labels, the dependency arcs
    (as the dependency visualiser lists them) and the named entities. */
module Annotation {

  /** A token: its surface text, coarse part of speech, dependency label and
      whether it is outside the annotator's vocabulary. */
  datatype Token = Token(text: string, pos: string, dep: string, oov: bool)

  /** A dependency arc between token positions `start` and `end`, labelled `relation`. */
  datatype Arc = Arc(start: int, end: int, relation: string)

  /** A named entity: its text and its label (`DATE`, `CARDINAL`, ...) as `kind`. */
  datatype Entity = Entity(text: string, kind: string)

  /** The annotated prompt. */
  datatype Doc = Doc(tokens: seq<Token>, arcs: seq<Arc>, entities: seq<Entity>)

  /** The two results of the word-boundary regular-expression split on the
      conjunction cues: one of the filtered description, one of the prompt text. */
  datatype Splits = Splits(description: seq<string>, text: seq<string>)
}

=== FILE: catalogs.dfy ===
/** The two code-to-phrase dictionaries of the handler (model codes and option
    abbreviations), as ordered entry lists: Python dictionaries iterate in
    insertion order, and that order decides ties. */
module Catalogs {

  datatype Entry = Entry(key: string, phrase: string)

  type Catalog = seq<Entry>

  /** `list(d.keys())`. */
  function Keys(c: Catalog): (ks: seq<string>)
    ensures |ks| == |c|
    ensures forall i :: 0 <= i < |c| ==> ks[i] == c[i].key
  {
    seq(|c|, i requires 0 <= i < |c| => c[i].key)
  }

  /** `[k for k in d if d[k] == phrase]`, in catalog order. */
  function KeysWithPhrase(c: Catalog, phrase: string): (ks: seq<string>)
    ensures forall k :: k in ks ==> exists i :: 0 <= i < |c| && c[i].key == k && c[i].phrase == phrase
    ensures (exists i :: 0 <= i < |c| && c[i].phrase == phrase) ==> |ks| > 0
    ensures forall i :: 0 <= i < |c| && c[i].phrase == phrase ==> c[i].key in ks
  {
    if |c| == 0 then []
    else
      var rest := KeysWithPhrase(c[1..], phrase);
      assert forall k :: k in rest ==> exists i :: 0 <= i < |c| && c[i].key == k && c[i].phrase == phrase by {
        forall k | k in rest
          ensures exists i :: 0 <= i < |c| && c[i].key == k && c[i].phrase == phrase
        {
          var i :| 0 <= i < |c[1..]| && c[1..][i].key == k && c[1..][i].phrase == phrase;
          assert c[i + 1] == c[1..][i];
        }
      }
      assert (exists i :: 0 <= i < |c| && c[i].phrase == phrase) && c[0].phrase != phrase ==> |rest| > 0 by {
        if (exists i :: 0 <= i < |c| && c[i].phrase == phrase) && c[0].phrase != phrase {
          var i :| 0 <= i < |c| && c[i].phrase == phrase;
          assert c[1..][i - 1] == c[i];
        }
      }
      assert forall i :: 1 <= i < |c| && c[i].phrase == phrase ==> c[i].key in rest by {
        forall i | 1 <= i < |c| && c[i].phrase == phrase
          ensures c[i].key in rest
        {
          assert c[1..][i - 1] == c[i];
        }
      }
      (if c[0].phrase == phrase then [c[0].key] else []) + rest
  }

  /** No two entries share a phrase. */
  predicate DistinctPhrases(c: Catalog) {
    forall i, j :: 0 <= i < j < |c| ==> c[i].phrase != c[j].phrase
  }

  /** A phrase no entry carries names no key. */
  lemma {:induction false} NoKeysWithoutPhrase(c: Catalog, phrase: string)
    requires forall i :: 0 <= i < |c| ==> c[i].phrase != phrase
    ensures KeysWithPhrase(c, phrase) == []
    decreases |c|
  {
    if |c| > 0 {
      assert forall i :: 0 <= i < |c[1..]| ==> c[1..][i] == c[i + 1];
      NoKeysWithoutPhrase(c[1..], phrase);
    }
  }

  /** With distinct phrases, a phrase names exactly its own entry's key. */
  lemma {:induction false} KeysWithOwnPhrase(c: Catalog, i: nat)
    requires DistinctPhrases(c) && i < |c|
    ensures KeysWithPhrase(c, c[i].phrase) == [c[i].key]
    decreases |c|
  {
    if i == 0 {
      forall j | 0 <= j < |c[1..]|
        ensures c[1..][j].phrase != c[0].phrase
      {
        assert c[1..][j] == c[j + 1];
      }
      NoKeysWithoutPhrase(c[1..], c[0].phrase);
    } else {
      assert c[0].phrase != c[i].phrase;
      assert c[1..][i - 1] == c[i];
      KeysWithOwnPhrase(c[1..], i - 1);
    }
  }

  /** The handler's model-code dictionary, in its insertion order. */
  const ModelCatalog: Catalog := [
    Entry("21CF", "iX xDrive50"),
    Entry("11CF", "iX xDrive40"),
    Entry("21EM", "X7 xDrive40i"),
    Entry("21EN", "X7 xDrive40d"),
    Entry("DZ01", "M8"),
    Entry("28FF", "318i")
  ]

  /** The handler's abbreviation dictionary, in its insertion order. */
  const AbbreviationCatalog: Catalog := [
    Entry("LL", "Left-Hand Drive"),
    Entry("RL", "Right-Hand Drive"),
    Entry("P337A", "M Sport Package"),
    Entry("P33BA", "M Sport Package Pro"),
    Entry("P7LGA", "Comfort Package EU"),
    Entry("S402A", "Panorama Glass Roof"),
    Entry("S407A", "Panorama Glass Roof Sky Lounge"),
    Entry("S403A", "Sunroof")
  ]

  lemma HandlerCatalogsDistinct()
    ensures DistinctPhrases(ModelCatalog)
    ensures DistinctPhrases(AbbreviationCatalog)
  {
  }
}

=== FILE: dates.dfy ===
/** The date stage of the handler (`get_parsed_dates`) around the date search:
    which entity is searched, which day of the month is preferred, and which
    found date is kept. The search itself, including the formatting of the
    found dates as `YYYY-MM-DD`, is a parameter. */
module Dates {
  import opened Wrappers
  import opened Text
  import opened Faults
  import opened Annotation

  /** The `PREFER_DAY_OF_MONTH` setting handed to the date search. */
  datatype DayPreference = FirstDay | LastDay

  /** What the date search returns: nothing (`None`), or the found dates,
      each already formatted. */
  datatype Search = NoDates | Found(formatted: seq<string>)

  /** The date search: entity text and day preference to its result. */
  type DateSearch = (string, DayPreference) -> Search

  /** Words of the prompt that ask for the end of a period. */
  const LateWords: set<string> := {"late", "latter", "end"}

  /** The last day of the month is preferred exactly when a word of the prompt
      asks for the end of a period. */
  function Preference(text: string): (r: DayPreference)
    ensures r == LastDay <==> "late" in Words(text) || "latter" in Words(text) || "end" in Words(text)
  {
    if AsksForEnd(Words(text)) then LastDay else FirstDay
  }

  predicate AsksForEnd(ws: seq<string>) {
    exists i :: 0 <= i < |ws| && ws[i] in LateWords
  }

  predicate IsDateLike(e: Entity) {
    e.kind == "DATE" || e.kind == "CARDINAL"
  }

  /** Texts of the entities labelled `DATE` or `CARDINAL`, in order. */
  function Candidates(entities: seq<Entity>): (ts: seq<string>)
    ensures |ts| <= |entities|
    ensures |ts| == 0 <==> forall i :: 0 <= i < |entities| ==> !IsDateLike(entities[i])
  {
    if |entities| == 0 then []
    else
      var rest := Candidates(entities[1..]);
      assert forall i :: 1 <= i < |entities| ==> entities[1..][i - 1] == entities[i];
      (if IsDateLike(entities[0]) then [entities[0].text] else []) + rest
  }

  /** The date of the prompt: the last date-like entity is searched with the
      preferred day, and the last date found is kept. No date-like entity
      makes the `[-1]` lookup raise; a search finding nothing returns `None`,
      which cannot be indexed. */
  function ParsedDate(entities: seq<Entity>, text: string, search: DateSearch): (r: Result<string, Fault>)
    ensures r.Success? <==>
      && |Candidates(entities)| > 0
      && var found := search(Candidates(entities)[|Candidates(entities)| - 1], Preference(text));
         found.Found? && |found.formatted| > 0
    ensures r.Success? ==>
      var found := search(Candidates(entities)[|Candidates(entities)| - 1], Preference(text));
      r.value == found.formatted[|found.formatted| - 1]
    ensures r == Failure(NotSubscriptable) <==>
      |Candidates(entities)| > 0 && search(Candidates(entities)[|Candidates(entities)| - 1], Preference(text)) == NoDates
  {
    var dt := Candidates(entities);
    if |dt| == 0 then Failure(IndexOutOfRange)
    else
      match search(dt[|dt| - 1], Preference(text))
      case NoDates => Failure(NotSubscriptable)
      case Found(found) =>
        if |found| == 0 then Failure(IndexOutOfRange) else Success(found[|found| - 1])
  }

  /** Appending an entity adds its text to the candidates exactly when it is
      date-like. */
  lemma {:induction false} CandidatesAppend(entities: seq<Entity>, e: Entity)
    ensures Candidates(entities + [e]) == Candidates(entities) + (if IsDateLike(e) then [e.text] else [])
    decreases |entities|
  {
    if |entities| == 0 {
      assert Candidates([e][1..]) == [];
    } else {
      var tail := if IsDateLike(e) then [e.text] else [];
      var head := if IsDateLike(entities[0]) then [entities[0].text] else [];
      assert (entities + [e])[0] == entities[0];
      assert (entities + [e])[1..] == entities[1..] + [e];
      CandidatesAppend(entities[1..], e);
      assert Candidates(entities + [e]) == head + (Candidates(entities[1..]) + tail);
      assert Candidates(entities) == head + Candidates(entities[1..]);
    }
  }

  /** Only the last date-like entity is searched: an entity that is not
      date-like changes nothing when it comes last, and a date-like one
      decides the date alone. */
  lemma LastEntityDecides(entities: seq<Entity>, e: Entity, text: string, search: DateSearch)
    ensures !IsDateLike(e) ==> ParsedDate(entities + [e], text, search) == ParsedDate(entities, text, search)
    ensures IsDateLike(e) ==> ParsedDate(entities + [e], text, search) == ParsedDate([e], text, search)
  {
    CandidatesAppend(entities, e);
    CandidatesAppend([], e);
    assert [] + [e] == [e];
  }
}

=== FILE: faults.dfy ===
/** The exceptions the core can raise on its own, one constructor per Python
    exception kind. Their `str(e)` text is not modelled: the pipeline receives it
    through a parameter of type `Fault -> string`. */
module Faults {

  datatype Fault =
    | EmptyMax          // ValueError: `max()` of an empty list
    | IndexOutOfRange   // IndexError: a list or string indexed past its end
    | MissingColumn     // KeyError: a column of a DataFrame built from no rows
    | NotSubscriptable  // TypeError: `None[-1]` when the date search finds nothing
}

=== FILE: formula.dfy ===
/** Formula assembly of `Handler.get_boolean_formula`: the conjunction cues,
    the grouping mode, the per-segment emission of operators, polarity signs,
    brackets and keys, and the completeness repair. */
module Formula {
  import opened Wrappers
  import opened Text
  import opened Faults
  import opened Annotation
  import opened Catalogs
  import opened Fuzzy
  import opened Abbreviations

  /** Parts of speech kept in the description string. */
  const DescriptivePos: set<string> := {"PROPN", "NOUN", "VERB", "ADJ", "CCONJ", "PUNCT"}

  /** Dependency labels and texts of the conjunction cue tokens. */
  const CueDeps: set<string> := {"cc", "punct"}
  const CueWords: set<string> := {"and", "or", ",", "."}

  /** Synonyms of "with" and of "without". */
  const Positive: set<string> := {"with", "accompanied", "company", "together", "addition", "including",
                                  "along", "amidst", "among", "amid", "having", "in"}
  const Negative: set<string> := {"without", "lacking", "deprived", "not", "missing", "destitute",
                                  "bereft", "deficient", "void", "unaccompanied", "except", "exclusive"}

  /** The characters the formula uses besides the keys. */
  const Symbols: set<char> := {'+', '-', '/', '(', ')'}

  /** Surface texts of the tokens whose part of speech is descriptive, in order. */
  function DescriptiveTexts(tokens: seq<Token>): (ts: seq<string>)
    ensures |ts| <= |tokens|
  {
    if |tokens| == 0 then []
    else (if tokens[0].pos in DescriptivePos then [tokens[0].text] else []) + DescriptiveTexts(tokens[1..])
  }

  /** A text is kept exactly when some token with that text has a descriptive
      part of speech. */
  lemma {:induction false} DescriptiveMembers(tokens: seq<Token>, w: string)
    ensures w in DescriptiveTexts(tokens) <==> exists i :: 0 <= i < |tokens| && tokens[i].pos in DescriptivePos && tokens[i].text == w
    decreases |tokens|
  {
    if |tokens| > 0 {
      DescriptiveMembers(tokens[1..], w);
      if exists i :: 0 <= i < |tokens| && tokens[i].pos in DescriptivePos && tokens[i].text == w {
        var i :| 0 <= i < |tokens| && tokens[i].pos in DescriptivePos && tokens[i].text == w;
        if i > 0 {
          assert tokens[1..][i - 1] == tokens[i];
        }
      }
      if exists i :: 0 <= i < |tokens[1..]| && tokens[1..][i].pos in DescriptivePos && tokens[1..][i].text == w {
        var i :| 0 <= i < |tokens[1..]| && tokens[1..][i].pos in DescriptivePos && tokens[1..][i].text == w;
        assert tokens[i + 1] == tokens[1..][i];
      }
    }
  }

  /** One more token adds its text to the descriptive texts exactly when its
      part of speech is descriptive. */
  lemma {:induction false} DescriptiveAppend(tokens: seq<Token>, t: Token)
    ensures DescriptiveTexts(tokens + [t]) == DescriptiveTexts(tokens) + (if t.pos in DescriptivePos then [t.text] else [])
    decreases |tokens|
  {
    if |tokens| == 0 {
      assert DescriptiveTexts([t][1..]) == [];
    } else {
      var tail := if t.pos in DescriptivePos then [t.text] else [];
      var head := if tokens[0].pos in DescriptivePos then [tokens[0].text] else [];
      assert (tokens + [t])[0] == tokens[0];
      assert (tokens + [t])[1..] == tokens[1..] + [t];
      DescriptiveAppend(tokens[1..], t);
      assert DescriptiveTexts(tokens + [t]) == head + (DescriptiveTexts(tokens[1..]) + tail);
      assert DescriptiveTexts(tokens) == head + DescriptiveTexts(tokens[1..]);
    }
  }

  /** The description string: the descriptive texts joined by single spaces. */
  function Description(tokens: seq<Token>): string {
    Join(" ", DescriptiveTexts(tokens))
  }

  /** One more descriptive token adds a space and its text to the description
      (just its text when nothing was kept before); any other token changes
      nothing. */
  lemma DescriptionAppend(tokens: seq<Token>, t: Token)
    ensures Description(tokens + [t]) ==
      if t.pos !in DescriptivePos then Description(tokens)
      else if |DescriptiveTexts(tokens)| == 0 then t.text
      else Description(tokens) + " " + t.text
  {
    DescriptiveAppend(tokens, t);
    if t.pos in DescriptivePos {
      JoinAppend(" ", DescriptiveTexts(tokens), t.text);
    } else {
      assert DescriptiveTexts(tokens) + [] == DescriptiveTexts(tokens);
    }
  }

  predicate IsCue(t: Token) {
    t.dep in CueDeps && t.text in CueWords
  }

  /** The texts of the conjunction cue tokens, left to right. */
  function Cues(tokens: seq<Token>): (cues: seq<string>)
    ensures |cues| <= |tokens|
    ensures forall i :: 0 <= i < |cues| ==> cues[i] in CueWords
    ensures |cues| == 0 <==> forall i :: 0 <= i < |tokens| ==> !IsCue(tokens[i])
  {
    if |tokens| == 0 then []
    else
      var rest := Cues(tokens[1..]);
      assert forall i :: 1 <= i < |tokens| ==> tokens[1..][i - 1] == tokens[i];
      (if IsCue(tokens[0]) then [tokens[0].text] else []) + rest
  }

  /** One more token adds its own text at the end of the cues exactly when it
      is a cue token: the cues are the cue tokens' texts in token order. */
  lemma {:induction false} CuesAppend(tokens: seq<Token>, t: Token)
    ensures Cues(tokens + [t]) == Cues(tokens) + (if IsCue(t) then [t.text] else [])
    decreases |tokens|
  {
    if |tokens| == 0 {
      assert Cues([t][1..]) == [];
    } else {
      var tail := if IsCue(t) then [t.text] else [];
      var head := if IsCue(tokens[0]) then [tokens[0].text] else [];
      assert (tokens + [t])[0] == tokens[0];
      assert (tokens + [t])[1..] == tokens[1..] + [t];
      CuesAppend(tokens[1..], t);
      assert Cues(tokens + [t]) == head + (Cues(tokens[1..]) + tail);
      assert Cues(tokens) == head + Cues(tokens[1..]);
    }
  }

  /** Which matched pair, if any, is bracketed. */
  datatype Grouping = Plain | First | Second

  /** The arcs labelled `cc`, in order. */
  function CcArcs(arcs: seq<Arc>): (cc: seq<Arc>)
    ensures |cc| <= |arcs|
    ensures forall i :: 0 <= i < |cc| ==> cc[i].relation == "cc"
  {
    if |arcs| == 0 then []
    else (if arcs[0].relation == "cc" then [arcs[0]] else []) + CcArcs(arcs[1..])
  }

  /** One more arc joins the `cc` arcs at the end exactly when it is labelled
      `cc`. */
  lemma {:induction false} CcArcsAppend(arcs: seq<Arc>, a: Arc)
    ensures CcArcs(arcs + [a]) == CcArcs(arcs) + (if a.relation == "cc" then [a] else [])
    decreases |arcs|
  {
    if |arcs| == 0 {
      assert CcArcs([a][1..]) == [];
    } else {
      var tail := if a.relation == "cc" then [a] else [];
      var head := if arcs[0].relation == "cc" then [arcs[0]] else [];
      assert (arcs + [a])[0] == arcs[0];
      assert (arcs + [a])[1..] == arcs[1..] + [a];
      CcArcsAppend(arcs[1..], a);
      assert CcArcs(arcs + [a]) == head + (CcArcs(arcs[1..]) + tail);
      assert CcArcs(arcs) == head + CcArcs(arcs[1..]);
    }
  }

  /** The `needed` flag of an arc: 1 when it spans more than one position. */
  function Needed(a: Arc): int {
    if a.end - a.start > 1 then 1 else 0
  }

  /** An arc spanning more than one position. */
  predicate Wide(a: Arc) {
    a.end - a.start > 1
  }

  /** The grouping mode (bmwgroupcodingtaskakash.py lines 325-336). Only cues holding both "and"
      and "or" ask for brackets; then the first two `cc` arcs decide, by their
      `needed` flags. An empty arc table has no `label` column; fewer than two
      `cc` arcs make the second flag lookup raise. */
  function GroupingMode(cues: seq<string>, arcs: seq<Arc>): (r: Result<Grouping, Fault>)
    ensures !("and" in cues && "or" in cues) ==> r == Success(Plain)
    ensures "and" in cues && "or" in cues ==>
      && (r.Failure? <==> |CcArcs(arcs)| < 2)
      && (r == Success(Second) <==> |CcArcs(arcs)| >= 2 && Wide(CcArcs(arcs)[0]) && !Wide(CcArcs(arcs)[1]))
      && (r.Success? ==> r.value != Plain)
    ensures r.Failure? ==> r.error == (if |arcs| == 0 then MissingColumn else IndexOutOfRange)
  {
    if "and" in cues && "or" in cues then
      if |arcs| == 0 then Failure(MissingColumn)
      else
        var cc := CcArcs(arcs);
        if |cc| < 2 then Failure(IndexOutOfRange)
        else if Needed(cc[0]) > Needed(cc[1]) then Success(Second)
        else Success(First)
    else Success(Plain)
  }

  /** The flags, not the widths, decide: a first arc of width 3 followed by
      one of width 2 still gives the first grouping. */
  lemma FlagsNotWidths()
    ensures GroupingMode(["and", "or"], [Arc(0, 3, "cc"), Arc(4, 6, "cc")]) == Success(First)
  {
    var arcs := [Arc(0, 3, "cc"), Arc(4, 6, "cc")];
    assert CcArcs(arcs[1..][1..]) == [];
    assert CcArcs(arcs) == arcs;
  }

  /** Some word of the segment belongs to the synonym set. */
  predicate Mentions(segment: string, synonyms: set<string>) {
    var ws := Words(segment);
    exists i :: 0 <= i < |ws| && ws[i] in synonyms
  }

  /** The polarity carried into a segment: "-" for a "without" synonym
      (checked first), "+" for a "with" synonym, otherwise unchanged. */
  function NextPolarity(prev: string, segment: string): (p: string)
    ensures Mentions(segment, Negative) ==> p == "-"
    ensures !Mentions(segment, Negative) && Mentions(segment, Positive) ==> p == "+"
    ensures !Mentions(segment, Negative) && !Mentions(segment, Positive) ==> p == prev
  {
    if Mentions(segment, Negative) then "-"
    else if Mentions(segment, Positive) then "+"
    else prev
  }

  /** The polarity after the first `n` segments, starting unset. */
  function PolarityAfter(segments: seq<string>, n: nat): (p: string)
    requires n <= |segments|
    ensures p == "" || p == "+" || p == "-"
  {
    if n == 0 then "" else NextPolarity(PolarityAfter(segments, n - 1), segments[n - 1])
  }

  /** "/" before segment `ind` when the cue before it is "or". */
  function Continuation(cues: seq<string>, ind: nat): string
    requires ind <= |cues|
  {
    if ind > 0 && cues[ind - 1] == "or" then "/" else ""
  }

  /** How many entries of the match list are non-empty and already occur in `f`
      (every entry counts, by position). */
  function Present(slots: seq<string>, f: string): nat {
    if |slots| == 0 then 0
    else
      var last := slots[|slots| - 1];
      Present(slots[..|slots| - 1], f) + (if last != "" && IsSubstring(last, f) then 1 else 0)
  }

  /** A non-empty entry present in `f` adds one to the count. */
  lemma {:induction false} PresentAtLeastOne(slots: seq<string>, f: string, i: nat)
    requires i < |slots| && slots[i] != "" && IsSubstring(slots[i], f)
    ensures Present(slots, f) >= 1
    decreases |slots|
  {
    if i < |slots| - 1 {
      var init := slots[..|slots| - 1];
      assert init[i] == slots[i];
      PresentAtLeastOne(init, f, i);
    }
  }

  /** A key that the match list holds twice is counted twice once it occurs:
      the count then jumps past 1, which is what the first grouping's closing
      test waits for. */
  lemma {:induction false} RepeatedKeyCountsTwice(slots: seq<string>, f: string, i: nat, j: nat)
    requires i < j < |slots| && slots[i] == slots[j] != "" && IsSubstring(slots[i], f)
    ensures Present(slots, f) >= 2
    ensures CloseBracket(First, slots, f) == ""
    decreases |slots|
  {
    var init := slots[..|slots| - 1];
    if j == |slots| - 1 {
      assert init[i] == slots[i];
      PresentAtLeastOne(init, f, i);
    } else {
      assert init[i] == slots[i] && init[j] == slots[j];
      RepeatedKeyCountsTwice(init, f, i, j);
    }
  }

  /** The number of non-empty entries. */
  function NonEmptyCount(xs: seq<string>): nat {
    if |xs| == 0 then 0
    else NonEmptyCount(xs[..|xs| - 1]) + (if xs[|xs| - 1] != "" then 1 else 0)
  }

  /** The bracket opened before a key, from the count of keys already present. */
  function OpenBracket(mode: Grouping, slots: seq<string>, f: string): string {
    match mode
    case Plain => ""
    case First => if Present(slots, f) == 0 then "(" else ""
    case Second => if Present(slots, f) == 1 && |f| > 0 then "(" else ""
  }

  /** The bracket closed after a key, from the count of keys present before it. */
  function CloseBracket(mode: Grouping, slots: seq<string>, f: string): string {
    match mode
    case Plain => ""
    case First => if Present(slots, f) == 1 && |f| > 0 then ")" else ""
    case Second => if Present(slots, f) == 2 && |f| > 0 then ")" else ""
  }

  /** The loop's carried state: the formula so far and the polarity. */
  datatype Assembly = Assembly(formula: string, polarity: string)

  /** One iteration of the assembly loop (bmwgroupcodingtaskakash.py lines 352-401). The cue lookup
      and the match-list lookup raise when the segment index runs past them. */
  function Step(acc: Assembly, ind: nat, segment: string, cues: seq<string>, slots: seq<string>, mode: Grouping): (r: Result<Assembly, Fault>)
    ensures r.Success? <==> ind <= |cues| && ind < |slots|
    ensures r.Failure? ==> r.error == IndexOutOfRange
    ensures r.Success? ==> r.value.polarity == NextPolarity(acc.polarity, segment)
    ensures r.Success? && slots[ind] == "" ==> r.value.formula == acc.formula
    ensures r.Success? ==> |acc.formula| <= |r.value.formula| && r.value.formula[..|acc.formula|] == acc.formula
  {
    if ind > 0 && ind - 1 >= |cues| then Failure(IndexOutOfRange)
    else
      var conj := Continuation(cues, ind);
      var pol := NextPolarity(acc.polarity, segment);
      if ind >= |slots| then Failure(IndexOutOfRange)
      else if |slots[ind]| > 0 then
        var f1 := acc.formula + conj + pol + OpenBracket(mode, slots, acc.formula);
        var f2 := f1 + slots[ind] + CloseBracket(mode, slots, f1);
        assert f2[..|acc.formula|] == acc.formula;
        Success(Assembly(f2, pol))
      else
        Success(Assembly(acc.formula, pol))
  }

  /** The assembly loop over the first `n` segments. */
  function Assemble(segments: seq<string>, cues: seq<string>, slots: seq<string>, mode: Grouping, n: nat): (r: Result<Assembly, Fault>)
    requires n <= |segments|
    ensures r.Success? <==> n <= |slots| && n <= |cues| + 1
    ensures r.Success? ==> r.value.polarity == PolarityAfter(segments, n)
  {
    if n == 0 then Success(Assembly("", ""))
    else
      var acc :- Assemble(segments, cues, slots, mode, n - 1);
      Step(acc, n - 1, segments[n - 1], cues, slots, mode)
  }

  // ---------------------------------------------------------------------
  // Reference rendering: brackets placed by the rank of each key.
  // ---------------------------------------------------------------------

  /** The number of non-empty slots before slot `j`. */
  function Rank(slots: seq<string>, j: nat): nat
    requires j <= |slots|
  {
    NonEmptyCount(slots[..j])
  }

  /** First mode opens before the first key; second mode before the second. */
  function OpenAt(mode: Grouping, rank: nat): string {
    if (mode == First && rank == 0) || (mode == Second && rank == 1) then "(" else ""
  }

  /** First mode closes after the second key; second mode after the third. */
  function CloseAt(mode: Grouping, rank: nat): string {
    if (mode == First && rank == 1) || (mode == Second && rank == 2) then ")" else ""
  }

  /** The formula after the first `n` segments, bracketed by rank: an empty
      slot contributes nothing; a key is preceded by its operator, polarity and
      opening bracket and followed by its closing bracket. */
  function Rendered(segments: seq<string>, cues: seq<string>, slots: seq<string>, mode: Grouping, n: nat): string
    requires n <= |segments| && n <= |slots| && n <= |cues| + 1
  {
    if n == 0 then ""
    else
      var r := Rendered(segments, cues, slots, mode, n - 1);
      var j := n - 1;
      if slots[j] == "" then r
      else r + Continuation(cues, j) + PolarityAfter(segments, n) + OpenAt(mode, Rank(slots, j)) + slots[j] + CloseAt(mode, Rank(slots, j))
  }

  predicate SymbolFree(s: string) {
    forall i :: 0 <= i < |s| ==> s[i] !in Symbols
  }

  predicate AllSymbols(s: string) {
    forall i :: 0 <= i < |s| ==> s[i] in Symbols
  }

  /** The conditions under which counting the keys found in the formula counts
      the keys emitted: keys carry no formula symbols, no non-empty slot occurs
      inside another one, and none occurs across the junction of two others. */
  predicate Separated(slots: seq<string>) {
    KeysSymbolFree(slots) && KeysApart(slots) && KeysJoinApart(slots)
  }

  predicate KeysSymbolFree(slots: seq<string>) {
    forall i :: 0 <= i < |slots| ==> SymbolFree(slots[i])
  }

  /** No non-empty slot occurs inside a different non-empty slot. */
  predicate KeysApart(slots: seq<string>) {
    forall i, j :: 0 <= i < |slots| && 0 <= j < |slots| && i != j && slots[i] != "" && slots[j] != ""
      ==> !IsSubstring(slots[i], slots[j])
  }

  /** `m` starts inside `a` and ends inside `b`: it occurs in `a + b` across
      the junction, and covers neither part. */
  predicate Straddles(m: string, a: string, b: string) {
    exists t :: 0 < t < |a| && 0 < |m| - t < |b| && m[..t] == a[|a| - t..] && m[t..] == b[..|m| - t]
  }

  /** No non-empty slot occurs across the junction of two other non-empty
      slots, as it could where a key is emitted right after the previous one
      with no operator, sign or bracket between them. */
  predicate KeysJoinApart(slots: seq<string>) {
    forall i, j, k ::
      0 <= i < |slots| && 0 <= j < |slots| && 0 <= k < |slots| && k != i && k != j
      && slots[i] != "" && slots[j] != "" && slots[k] != ""
      ==> !Straddles(slots[k], slots[i], slots[j])
  }

  /** A run of formula symbols separates the text around it: a symbol-free
      string occurs across it only by occurring on one side. */
  lemma SplitAtSymbols(m: string, a: string, s: string, b: string)
    requires |m| > 0 && SymbolFree(m)
    requires |s| > 0 && AllSymbols(s)
    ensures IsSubstring(m, a + s + b) <==> IsSubstring(m, a) || IsSubstring(m, b)
  {
    var w := a + s + b;
    assert w == a + (s + b);
    SubstringOfPart(m, a, s + b);
    assert w == (a + s) + b;
    SubstringOfPart(m, a + s, b);
    if IsSubstring(m, w) {
      var i :| 0 <= i <= |w| && OccursAt(m, w, i);
      if i + |m| <= |a| {
        assert w[i..i + |m|] == a[i..i + |m|];
        assert OccursAt(m, a, i);
      } else if i >= |a| + |s| {
        var k := i - |a| - |s|;
        assert w[i..i + |m|] == b[k..k + |m|];
        assert OccursAt(m, b, k);
      } else {
        var k := if i >= |a| then i else |a|;
        OccurrenceChar(m, w, i, k);
        MiddleChar(a, s, b, k);
      }
    }
  }

  lemma OccurrenceChar(m: string, w: string, i: int, k: int)
    requires OccursAt(m, w, i) && i <= k < i + |m|
    ensures w[k] == m[k - i]
  {
    assert w[i..i + |m|][k - i] == w[k];
  }

  lemma MiddleChar(a: string, s: string, b: string, k: int)
    requires |a| <= k < |a| + |s|
    ensures (a + s + b)[k] == s[k - |a|]
  {
  }

  /** Trailing formula symbols add no occurrence of a symbol-free string. */
  lemma TrailingSymbols(m: string, a: string, t: string)
    requires |m| > 0 && SymbolFree(m)
    requires AllSymbols(t)
    ensures IsSubstring(m, a + t) <==> IsSubstring(m, a)
  {
    if |t| == 0 {
      assert a + t == a;
    } else {
      SplitAtSymbols(m, a, t, "");
      assert a + t + "" == a + t;
      if IsSubstring(m, "") {
        SubstringNonEmpty(m, "");
      }
    }
  }

  lemma SubstringOfItself(s: string)
    ensures IsSubstring(s, s)
  {
    assert OccursAt(s, s, 0);
  }

  /** The rank grows by one exactly at a non-empty slot. */
  lemma RankStep(slots: seq<string>, n: nat)
    requires 0 < n <= |slots|
    ensures Rank(slots, n) == Rank(slots, n - 1) + (if slots[n - 1] != "" then 1 else 0)
  {
    assert slots[..n][..n - 1] == slots[..n - 1];
  }

  /** The separator before a key (operator, polarity, opening bracket) and the
      bracket after it are made of formula symbols. */
  lemma PieceParts(segments: seq<string>, cues: seq<string>, slots: seq<string>, mode: Grouping, j: nat)
    requires j < |segments| && j < |slots| && j <= |cues|
    ensures AllSymbols(Continuation(cues, j) + PolarityAfter(segments, j + 1) + OpenAt(mode, Rank(slots, j)))
    ensures AllSymbols(CloseAt(mode, Rank(slots, j)))
  {
    var conj := Continuation(cues, j);
    var pol := PolarityAfter(segments, j + 1);
    var open := OpenAt(mode, Rank(slots, j));
    assert AllSymbols(conj) && AllSymbols(pol) && AllSymbols(open);
    AllSymbolsConcat(conj, pol);
    AllSymbolsConcat(conj + pol, open);
  }

  lemma AllSymbolsConcat(a: string, b: string)
    requires AllSymbols(a) && AllSymbols(b)
    ensures AllSymbols(a + b)
  {
    assert forall i :: |a| <= i < |a + b| ==> (a + b)[i] == b[i - |a|];
  }

  /** An empty slot renders nothing. */
  lemma RenderedSkips(segments: seq<string>, cues: seq<string>, slots: seq<string>, mode: Grouping, n: nat)
    requires 0 < n <= |segments| && n <= |slots| && n <= |cues| + 1
    requires slots[n - 1] == ""
    ensures Rendered(segments, cues, slots, mode, n) == Rendered(segments, cues, slots, mode, n - 1)
  {
  }

  /** A key piece: the rendering so far, the symbols before the key, the key,
      and the symbols after it. */
  lemma RenderedPiece(segments: seq<string>, cues: seq<string>, slots: seq<string>, mode: Grouping, n: nat)
    requires 0 < n <= |segments| && n <= |slots| && n <= |cues| + 1
    requires slots[n - 1] != ""
    ensures var j := n - 1;
            var sep := Continuation(cues, j) + PolarityAfter(segments, n) + OpenAt(mode, Rank(slots, j));
            var close := CloseAt(mode, Rank(slots, j));
            && AllSymbols(sep) && AllSymbols(close)
            && Rendered(segments, cues, slots, mode, n) == Rendered(segments, cues, slots, mode, j) + sep + slots[j] + close
  {
    var j := n - 1;
    var r := Rendered(segments, cues, slots, mode, j);
    var rank := Rank(slots, j);
    var sep := Continuation(cues, j) + PolarityAfter(segments, n) + OpenAt(mode, rank);
    PieceParts(segments, cues, slots, mode, j);
    assert r + Continuation(cues, j) + PolarityAfter(segments, n) + OpenAt(mode, rank) == r + sep;
  }

  predicate EndsWith(s: string, w: string) {
    |w| <= |s| && s[|s| - |w|..] == w
  }

  /** The rendering is empty, ends with a formula symbol, or ends with the
      last key emitted. */
  lemma {:induction false} RenderedTail(segments: seq<string>, cues: seq<string>, slots: seq<string>, mode: Grouping, n: nat)
    requires n <= |segments| && n <= |slots| && n <= |cues| + 1
    ensures var r := Rendered(segments, cues, slots, mode, n);
            r == "" || r[|r| - 1] in Symbols || exists i :: 0 <= i < n && slots[i] != "" && EndsWith(r, slots[i])
  {
    if n > 0 {
      var j := n - 1;
      if slots[j] == "" {
        RenderedTail(segments, cues, slots, mode, j);
        RenderedSkips(segments, cues, slots, mode, n);
      } else {
        RenderedPiece(segments, cues, slots, mode, n);
        var r := Rendered(segments, cues, slots, mode, n);
        var close := CloseAt(mode, Rank(slots, j));
        var front := Rendered(segments, cues, slots, mode, j)
                     + (Continuation(cues, j) + PolarityAfter(segments, n) + OpenAt(mode, Rank(slots, j)));
        assert r == front + slots[j] + close;
        if close == "" {
          assert r == front + slots[j];
          assert EndsWith(r, slots[j]);
        } else {
          assert r[|r| - 1] == close[|close| - 1];
        }
      }
    }
  }

  /** A slice of a slice is a slice of the whole. */
  lemma SliceOfSlice(w: string, i: nat, j: nat, k: nat, l: nat)
    requires i <= j <= |w| && k <= l <= j - i
    ensures w[i..j][k..l] == w[i + k..i + l]
  {
    assert |w[i..j][k..l]| == |w[i + k..i + l]|;
    forall n | 0 <= n < l - k
      ensures w[i..j][k..l][n] == w[i + k..i + l][n]
    {
    }
  }

  /** The three parts of `x + a + b` are slices of it. */
  lemma ThreeParts(x: string, a: string, b: string)
    ensures (x + a + b)[..|x| + |a|] == x + a
    ensures (x + a + b)[|x|..|x| + |a|] == a
    ensures (x + a + b)[|x| + |a|..] == b
  {
  }

  /** An occurrence in `x + a + b` lies in `x + a`, lies in `b`, crosses the
      junction of `a` and `b`, or covers `a` or `b` with more besides. */
  lemma JunctionCases(m: string, x: string, a: string, b: string)
    requires IsSubstring(m, x + a + b)
    ensures || IsSubstring(m, x + a) || IsSubstring(m, b) || Straddles(m, a, b)
            || (IsSubstring(a, m) && |a| < |m|) || (IsSubstring(b, m) && |b| < |m|)
  {
    var p :| 0 <= p <= |x + a + b| && OccursAt(m, x + a + b, p);
    if p + |m| <= |x| + |a| {
      JunctionLeft(m, x, a, b, p);
    } else if p >= |x| + |a| {
      JunctionRight(m, x, a, b, p);
    } else if p <= |x| {
      JunctionCoversLeft(m, x, a, b, p);
    } else if p + |m| == |x| + |a| + |b| {
      JunctionCoversRight(m, x, a, b, p);
    } else {
      JunctionStraddle(m, x, a, b, p);
    }
  }

  lemma JunctionLeft(m: string, x: string, a: string, b: string, p: nat)
    requires OccursAt(m, x + a + b, p) && p + |m| <= |x| + |a|
    ensures IsSubstring(m, x + a)
  {
    ThreeParts(x, a, b);
    SliceOfSlice(x + a + b, 0, |x| + |a|, p, p + |m|);
    assert OccursAt(m, x + a, p);
  }

  lemma JunctionRight(m: string, x: string, a: string, b: string, p: nat)
    requires OccursAt(m, x + a + b, p) && p >= |x| + |a|
    ensures IsSubstring(m, b)
  {
    var xa := |x| + |a|;
    ThreeParts(x, a, b);
    SliceOfSlice(x + a + b, xa, |x + a + b|, p - xa, p - xa + |m|);
    assert OccursAt(m, b, p - xa);
  }

  lemma JunctionCoversLeft(m: string, x: string, a: string, b: string, p: nat)
    requires OccursAt(m, x + a + b, p) && p <= |x| && p + |m| > |x| + |a|
    ensures IsSubstring(a, m) && |a| < |m|
  {
    var q := |x| - p;
    ThreeParts(x, a, b);
    SliceOfSlice(x + a + b, p, p + |m|, q, q + |a|);
    assert OccursAt(a, m, q);
  }

  lemma JunctionCoversRight(m: string, x: string, a: string, b: string, p: nat)
    requires OccursAt(m, x + a + b, p) && |x| < p < |x| + |a| && p + |m| == |x| + |a| + |b|
    ensures IsSubstring(b, m) && |b| < |m|
  {
    var q := |x| + |a| - p;
    ThreeParts(x, a, b);
    SliceOfSlice(x + a + b, p, p + |m|, q, |m|);
    assert OccursAt(b, m, q);
  }

  /** An occurrence that starts inside `a` and ends inside `b` straddles
      their junction. */
  lemma JunctionStraddle(m: string, x: string, a: string, b: string, p: nat)
    requires OccursAt(m, x + a + b, p)
    requires |x| < p < |x| + |a| < p + |m| < |x| + |a| + |b|
    ensures Straddles(m, a, b)
  {
    var w := x + a + b;
    var xa := |x| + |a|;
    var t := xa - p;
    ThreeParts(x, a, b);
    SliceOfSlice(w, p, p + |m|, 0, t);
    SliceOfSlice(w, |x|, xa, |a| - t, |a|);
    assert m[..t] == a[|a| - t..];
    SliceOfSlice(w, p, p + |m|, t, |m|);
    SliceOfSlice(w, xa, |w|, 0, |m| - t);
    assert m[t..] == b[..|m| - t];
  }

  /** Among separated slots a key occurs in a key only in itself. */
  lemma KeyInKey(slots: seq<string>, k: nat, j: nat)
    requires KeysApart(slots) && k < |slots| && j < |slots| && slots[k] != "" && slots[j] != ""
    ensures IsSubstring(slots[k], slots[j]) <==> k == j
  {
    if k == j {
      SubstringOfItself(slots[k]);
    }
  }

  /** After a formula symbol, a symbol-free string occurs only on one side. */
  lemma JoinedAfterSymbol(m: string, r: string, key: string)
    requires |m| > 0 && SymbolFree(m) && |r| > 0 && r[|r| - 1] in Symbols
    requires IsSubstring(m, r + key)
    ensures IsSubstring(m, r) || IsSubstring(m, key)
  {
    var r0 := r[..|r| - 1];
    var s := [r[|r| - 1]];
    assert r == r0 + s;
    assert r + key == r0 + s + key;
    SplitAtSymbols(m, r0, s, key);
    SubstringOfPart(m, r0, s);
  }

  /** Right after key `i`, key `j` adds no occurrence of a third key `k`. */
  lemma JoinedAfterKey(slots: seq<string>, i: nat, j: nat, k: nat, r: string)
    requires KeysApart(slots) && KeysJoinApart(slots)
    requires i < |slots| && j < |slots| && k < |slots| && i != j
    requires slots[i] != "" && slots[j] != "" && slots[k] != ""
    requires EndsWith(r, slots[i]) && IsSubstring(slots[k], r + slots[j])
    ensures IsSubstring(slots[k], r) || k == j
  {
    var a := slots[i];
    var x := r[..|r| - |a|];
    assert r == x + a;
    assert r + slots[j] == x + a + slots[j];
    JunctionCases(slots[k], x, a, slots[j]);
    KeyInKey(slots, i, k);
    KeyInKey(slots, j, k);
    assert k != i && k != j ==> !Straddles(slots[k], a, slots[j]);
    if k == i {
      assert OccursAt(a, r, |x|);
    }
  }

  /** A key written right after a rendering that is empty, ends with a symbol,
      or ends with an earlier key adds no occurrence of any other key. */
  lemma JoinedKey(slots: seq<string>, j: nat, k: nat, r: string)
    requires Separated(slots) && j < |slots| && k < |slots| && slots[j] != "" && slots[k] != ""
    requires r == "" || r[|r| - 1] in Symbols || exists i :: 0 <= i < j && slots[i] != "" && EndsWith(r, slots[i])
    requires IsSubstring(slots[k], r + slots[j])
    ensures IsSubstring(slots[k], r) || k == j
  {
    KeyInKey(slots, k, j);
    if r == "" {
      assert r + slots[j] == slots[j];
    } else if r[|r| - 1] in Symbols {
      JoinedAfterSymbol(slots[k], r, slots[j]);
    } else {
      var i :| 0 <= i < j && slots[i] != "" && EndsWith(r, slots[i]);
      JoinedAfterKey(slots, i, j, k, r);
    }
  }

  /** A key piece adds its own key and no other key of the match list. */
  lemma RenderedKeyStep(segments: seq<string>, cues: seq<string>, slots: seq<string>, mode: Grouping, n: nat, k: nat)
    requires 0 < n <= |segments| && n <= |slots| && n <= |cues| + 1
    requires Separated(slots) && slots[n - 1] != "" && k < |slots| && slots[k] != ""
    ensures IsSubstring(slots[k], Rendered(segments, cues, slots, mode, n))
        <==> IsSubstring(slots[k], Rendered(segments, cues, slots, mode, n - 1)) || k == n - 1
  {
    var j := n - 1;
    var m := slots[k];
    var r := Rendered(segments, cues, slots, mode, j);
    var sep := Continuation(cues, j) + PolarityAfter(segments, n) + OpenAt(mode, Rank(slots, j));
    var close := CloseAt(mode, Rank(slots, j));
    RenderedPiece(segments, cues, slots, mode, n);
    TrailingSymbols(m, r + sep + slots[j], close);
    KeyInKey(slots, k, j);
    SubstringOfPart(m, r + sep, slots[j]);
    SubstringOfPart(m, r, sep);
    if |sep| > 0 {
      SplitAtSymbols(m, r, sep, slots[j]);
    } else {
      assert r + sep + slots[j] == r + slots[j];
      if IsSubstring(m, r + slots[j]) {
        RenderedTail(segments, cues, slots, mode, j);
        JoinedKey(slots, j, k, r);
      }
    }
  }

  /** A key of the match list occurs in the rendering of the first `n`
      segments exactly when its own segment is among them. */
  lemma {:induction false} RenderedKeys(segments: seq<string>, cues: seq<string>, slots: seq<string>, mode: Grouping, n: nat, k: nat)
    requires n <= |segments| && n <= |slots| && n <= |cues| + 1
    requires Separated(slots) && k < |slots| && slots[k] != ""
    ensures IsSubstring(slots[k], Rendered(segments, cues, slots, mode, n)) <==> k < n
  {
    if n == 0 {
      if IsSubstring(slots[k], "") {
        SubstringNonEmpty(slots[k], "");
      }
    } else {
      RenderedKeys(segments, cues, slots, mode, n - 1, k);
      if slots[n - 1] == "" {
        RenderedSkips(segments, cues, slots, mode, n);
      } else {
        RenderedKeyStep(segments, cues, slots, mode, n, k);
      }
    }
  }

  /** Counting the present keys position by position: when exactly the
      non-empty slots before `j` are present in `f`, `Present` is their number. */
  lemma {:induction false} PresentCountsPrefix(slots: seq<string>, f: string, j: nat)
    requires j <= |slots|
    requires forall i :: 0 <= i < |slots| ==> ((slots[i] != "" && IsSubstring(slots[i], f)) <==> (i < j && slots[i] != ""))
    ensures Present(slots, f) == NonEmptyCount(slots[..j])
  {
    if |slots| > 0 {
      var init := slots[..|slots| - 1];
      assert forall i :: 0 <= i < |init| ==> init[i] == slots[i];
      if j == |slots| {
        PresentCountsPrefix(init, f, |init|);
        assert init[..|init|] == init;
        assert slots[..j] == slots;
      } else {
        PresentCountsPrefix(init, f, j);
        assert init[..j] == slots[..j];
      }
    }
  }

  /** After the first `n` segments, and after any run of formula symbols
      appended to them, the keys found in the formula are exactly the keys
      emitted: `Present` equals the rank. */
  lemma PresentIsRank(segments: seq<string>, cues: seq<string>, slots: seq<string>, mode: Grouping, n: nat, t: string)
    requires n <= |segments| && n <= |slots| && n <= |cues| + 1
    requires Separated(slots)
    requires AllSymbols(t)
    ensures Present(slots, Rendered(segments, cues, slots, mode, n) + t) == Rank(slots, n)
  {
    var r := Rendered(segments, cues, slots, mode, n);
    forall i | 0 <= i < |slots| && slots[i] != ""
      ensures IsSubstring(slots[i], r + t) <==> i < n
    {
      TrailingSymbols(slots[i], r, t);
      RenderedKeys(segments, cues, slots, mode, n, i);
      if i < n {
        SubstringOfItself(slots[i]);
      }
    }
    PresentCountsPrefix(slots, r + t, n);
  }

  /** Every emitted key adds at least one character. */
  lemma {:induction false} RenderedLength(segments: seq<string>, cues: seq<string>, slots: seq<string>, mode: Grouping, n: nat)
    requires n <= |segments| && n <= |slots| && n <= |cues| + 1
    ensures |Rendered(segments, cues, slots, mode, n)| >= Rank(slots, n)
  {
    if n > 0 {
      RenderedLength(segments, cues, slots, mode, n - 1);
      RankStep(slots, n);
    }
  }

  /** The bracket opened before the key of segment `n` is the one its rank calls for. */
  lemma OpenMatchesRank(segments: seq<string>, cues: seq<string>, slots: seq<string>, mode: Grouping, n: nat)
    requires n < |segments| && n < |slots| && n <= |cues|
    requires Separated(slots)
    ensures OpenBracket(mode, slots, Rendered(segments, cues, slots, mode, n)) == OpenAt(mode, Rank(slots, n))
  {
    var r := Rendered(segments, cues, slots, mode, n);
    RenderedLength(segments, cues, slots, mode, n);
    PresentIsRank(segments, cues, slots, mode, n, "");
    assert r + "" == r;
  }

  /** The bracket closed after the key of segment `n` is the one its rank calls for. */
  lemma CloseMatchesRank(segments: seq<string>, cues: seq<string>, slots: seq<string>, mode: Grouping, n: nat)
    requires n < |segments| && n < |slots| && n <= |cues|
    requires Separated(slots)
    ensures var f1 := Rendered(segments, cues, slots, mode, n) + Continuation(cues, n)
                      + PolarityAfter(segments, n + 1) + OpenAt(mode, Rank(slots, n));
            CloseBracket(mode, slots, f1) == CloseAt(mode, Rank(slots, n))
  {
    var r := Rendered(segments, cues, slots, mode, n);
    var sep := Continuation(cues, n) + PolarityAfter(segments, n + 1) + OpenAt(mode, Rank(slots, n));
    RenderedLength(segments, cues, slots, mode, n);
    PieceParts(segments, cues, slots, mode, n);
    PresentIsRank(segments, cues, slots, mode, n, sep);
    assert r + Continuation(cues, n) + PolarityAfter(segments, n + 1) + OpenAt(mode, Rank(slots, n)) == r + sep;
  }

  /** One iteration of the loop appends the piece of its segment. */
  lemma StepRendersPiece(segments: seq<string>, cues: seq<string>, slots: seq<string>, mode: Grouping, n: nat)
    requires n < |segments| && n < |slots| && n <= |cues|
    requires Separated(slots)
    ensures Step(Assembly(Rendered(segments, cues, slots, mode, n), PolarityAfter(segments, n)), n, segments[n], cues, slots, mode)
         == Success(Assembly(Rendered(segments, cues, slots, mode, n + 1), PolarityAfter(segments, n + 1)))
  {
    if slots[n] == "" {
      RenderedSkips(segments, cues, slots, mode, n + 1);
    } else {
      OpenMatchesRank(segments, cues, slots, mode, n);
      CloseMatchesRank(segments, cues, slots, mode, n);
    }
  }

  /** The assembly loop renders each key with the brackets its rank calls for:
      in the first grouping "(" before the first key and ")" after the second,
      in the second grouping "(" before the second key and ")" after the third;
      operators, polarity signs and keys appear in segment order. */
  lemma {:induction false} AssembleByRank(segments: seq<string>, cues: seq<string>, slots: seq<string>, mode: Grouping, n: nat)
    requires n <= |segments| && n <= |slots| && n <= |cues| + 1
    requires Separated(slots)
    ensures Assemble(segments, cues, slots, mode, n)
         == Success(Assembly(Rendered(segments, cues, slots, mode, n), PolarityAfter(segments, n)))
  {
    if n > 0 {
      AssembleByRank(segments, cues, slots, mode, n - 1);
      var acc := Assembly(Rendered(segments, cues, slots, mode, n - 1), PolarityAfter(segments, n - 1));
      assert Assemble(segments, cues, slots, mode, n) == Step(acc, n - 1, segments[n - 1], cues, slots, mode);
      StepRendersPiece(segments, cues, slots, mode, n - 1);
    }
  }

  // ---------------------------------------------------------------------
  // Bracket and operator counts.
  // ---------------------------------------------------------------------

  /** The number of occurrences of `c` in `s`. */
  function Occurrences(c: char, s: string): nat {
    if |s| == 0 then 0 else (if s[0] == c then 1 else 0) + Occurrences(c, s[1..])
  }

  lemma OccurrencesConcat(c: char, a: string, b: string)
    ensures Occurrences(c, a + b) == Occurrences(c, a) + Occurrences(c, b)
  {
    if |a| > 0 {
      assert (a + b)[1..] == a[1..] + b;
      OccurrencesConcat(c, a[1..], b);
    } else {
      assert a + b == b;
    }
  }

  lemma OccurrencesSymbolFree(c: char, s: string)
    requires SymbolFree(s) && c in Symbols
    ensures Occurrences(c, s) == 0
  {
    if |s| > 0 {
      OccurrencesSymbolFree(c, s[1..]);
    }
  }

  /** How many keys among the first `n` segments follow an "or" cue. */
  function OrJoins(cues: seq<string>, slots: seq<string>, n: nat): nat
    requires n <= |slots| && n <= |cues| + 1
  {
    if n == 0 then 0
    else OrJoins(cues, slots, n - 1) + (if slots[n - 1] != "" && n > 1 && cues[n - 2] == "or" then 1 else 0)
  }

  /** How `c` is counted over one rendered key. */
  lemma PieceOccurrences(c: char, r: string, conj: string, pol: string, open: string, key: string, close: string)
    requires SymbolFree(key) && c in Symbols
    ensures Occurrences(c, r + conj + pol + open + key + close)
         == Occurrences(c, r) + Occurrences(c, conj) + Occurrences(c, pol) + Occurrences(c, open) + Occurrences(c, close)
  {
    OccurrencesConcat(c, r + conj + pol + open + key, close);
    OccurrencesConcat(c, r + conj + pol + open, key);
    OccurrencesConcat(c, r + conj + pol, open);
    OccurrencesConcat(c, r + conj, pol);
    OccurrencesConcat(c, r, conj);
    OccurrencesSymbolFree(c, key);
  }

  lemma OccurrencesOfOne(c: char, d: char)
    ensures Occurrences(c, [d]) == if c == d then 1 else 0
  {
    assert [d][1..] == [];
  }

  /** What the segment `n - 1` adds to the count of `c`. */
  function PieceCount(c: char, segments: seq<string>, cues: seq<string>, slots: seq<string>, mode: Grouping, n: nat): nat
    requires 0 < n <= |segments| && n <= |slots| && n <= |cues| + 1
  {
    var j := n - 1;
    if slots[j] == "" then 0
    else Occurrences(c, Continuation(cues, j)) + Occurrences(c, PolarityAfter(segments, n))
         + Occurrences(c, OpenAt(mode, Rank(slots, j))) + Occurrences(c, CloseAt(mode, Rank(slots, j)))
  }

  lemma RenderedCountStep(c: char, segments: seq<string>, cues: seq<string>, slots: seq<string>, mode: Grouping, n: nat)
    requires 0 < n <= |segments| && n <= |slots| && n <= |cues| + 1
    requires KeysSymbolFree(slots) && c in Symbols
    ensures Occurrences(c, Rendered(segments, cues, slots, mode, n))
         == Occurrences(c, Rendered(segments, cues, slots, mode, n - 1)) + PieceCount(c, segments, cues, slots, mode, n)
  {
    var j := n - 1;
    if slots[j] != "" {
      var rank := Rank(slots, j);
      PieceOccurrences(c, Rendered(segments, cues, slots, mode, j), Continuation(cues, j), PolarityAfter(segments, n),
                       OpenAt(mode, rank), slots[j], CloseAt(mode, rank));
    }
  }

  /** The small strings around a key, counted. */
  lemma SeparatorCounts(cues: seq<string>, j: nat, pol: string, mode: Grouping, rank: nat)
    requires j <= |cues|
    requires pol == "" || pol == "+" || pol == "-"
    ensures Occurrences('/', Continuation(cues, j)) == (if j > 0 && cues[j - 1] == "or" then 1 else 0)
    ensures Occurrences('(', Continuation(cues, j)) == 0 && Occurrences(')', Continuation(cues, j)) == 0
    ensures Occurrences('/', pol) == 0 && Occurrences('(', pol) == 0 && Occurrences(')', pol) == 0
    ensures Occurrences('(', OpenAt(mode, rank)) == (if OpenAt(mode, rank) == "(" then 1 else 0)
    ensures Occurrences('/', OpenAt(mode, rank)) == 0 && Occurrences(')', OpenAt(mode, rank)) == 0
    ensures Occurrences(')', CloseAt(mode, rank)) == (if CloseAt(mode, rank) == ")" then 1 else 0)
    ensures Occurrences('/', CloseAt(mode, rank)) == 0 && Occurrences('(', CloseAt(mode, rank)) == 0
  {
    OccurrencesOfOne('/', '/');
    OccurrencesOfOne('(', '/');
    OccurrencesOfOne(')', '/');
    OccurrencesOfOne('/', '(');
    OccurrencesOfOne('(', '(');
    OccurrencesOfOne(')', '(');
    OccurrencesOfOne('/', ')');
    OccurrencesOfOne('(', ')');
    OccurrencesOfOne(')', ')');
    OccurrencesOfOne('/', '+');
    OccurrencesOfOne('(', '+');
    OccurrencesOfOne(')', '+');
    OccurrencesOfOne('/', '-');
    OccurrencesOfOne('(', '-');
    OccurrencesOfOne(')', '-');
  }

  /** The rendering holds one "(" once the key that opens the group has been
      emitted and one ")" once the key that closes it has; a "/" stands before
      every key that follows an "or" cue. */
  lemma {:induction false} RenderedCounts(segments: seq<string>, cues: seq<string>, slots: seq<string>, mode: Grouping, n: nat)
    requires n <= |segments| && n <= |slots| && n <= |cues| + 1
    requires KeysSymbolFree(slots)
    ensures Occurrences('(', Rendered(segments, cues, slots, mode, n))
         == if (mode == First && Rank(slots, n) >= 1) || (mode == Second && Rank(slots, n) >= 2) then 1 else 0
    ensures Occurrences(')', Rendered(segments, cues, slots, mode, n))
         == if (mode == First && Rank(slots, n) >= 2) || (mode == Second && Rank(slots, n) >= 3) then 1 else 0
    ensures Occurrences('/', Rendered(segments, cues, slots, mode, n)) == OrJoins(cues, slots, n)
  {
    if n > 0 {
      RenderedCounts(segments, cues, slots, mode, n - 1);
      RankStep(slots, n);
      RenderedCountStep('(', segments, cues, slots, mode, n);
      RenderedCountStep(')', segments, cues, slots, mode, n);
      RenderedCountStep('/', segments, cues, slots, mode, n);
      SeparatorCounts(cues, n - 1, PolarityAfter(segments, n), mode, Rank(slots, n - 1));
    }
  }

  /** The brackets of the assembled formula balance exactly when the group is
      complete: in the first grouping a lone key leaves "(" open, in the second
      grouping so does a second key without a third. */
  lemma BracketsBalance(segments: seq<string>, cues: seq<string>, slots: seq<string>, mode: Grouping, n: nat)
    requires n <= |segments| && n <= |slots| && n <= |cues| + 1
    requires Separated(slots)
    ensures Assemble(segments, cues, slots, mode, n).Success?
    ensures var f := Assemble(segments, cues, slots, mode, n).value.formula;
            Occurrences('(', f) == Occurrences(')', f)
            <==> mode == Plain || (mode == First && Rank(slots, n) != 1) || (mode == Second && Rank(slots, n) != 2)
  {
    AssembleByRank(segments, cues, slots, mode, n);
    RenderedCounts(segments, cues, slots, mode, n);
  }

  // ---------------------------------------------------------------------
  // Completeness repair (bmwgroupcodingtaskakash.py lines 403-407).
  // ---------------------------------------------------------------------

  /** Every entry of the match list occurs in `f`. */
  predicate Covers(f: string, slots: seq<string>) {
    forall i :: 0 <= i < |slots| ==> IsSubstring(slots[i], f)
  }

  lemma SubstringOfExtension(p: string, f: string, g: string)
    requires IsSubstring(p, f) && |f| <= |g| && g[..|f|] == f
    ensures IsSubstring(p, g)
  {
    assert g == f + g[|f|..];
    SubstringOfPart(p, f, g[|f|..]);
  }

  /** The repair loop: each entry still missing is appended, preceded by the
      formula's first character (an operator sign, a bracket or a key's first
      letter); on an empty formula that lookup raises. */
  function RepairLoop(f: string, pending: seq<string>): (r: Result<string, Fault>)
    ensures r.Failure? <==> |f| == 0 && exists i :: 0 <= i < |pending| && pending[i] != ""
    ensures r.Failure? ==> r.error == IndexOutOfRange
    ensures r.Success? ==> |f| <= |r.value| && r.value[..|f|] == f && Covers(r.value, pending)
    ensures r.Success? && |pending| > 0 && |f| > 0 && !IsSubstring(pending[0], f) ==>
      var g := f + [f[0]] + pending[0];
      |g| <= |r.value| && r.value[..|g|] == g
    decreases |pending|
  {
    if |pending| == 0 then Success(f)
    else
      var w := pending[0];
      assert forall i :: 1 <= i < |pending| ==> pending[1..][i - 1] == pending[i];
      if IsSubstring(w, f) then
        var r := RepairLoop(f, pending[1..]);
        assert r.Success? ==> IsSubstring(w, r.value) by {
          if r.Success? { SubstringOfExtension(w, f, r.value); }
        }
        assert |f| == 0 ==> w == "" by {
          SubstringNonEmpty(w, f);
        }
        r
      else if |f| == 0 then
        assert OccursAt("", f, 0);
        assert pending[0] != "";
        Failure(IndexOutOfRange)
      else
        var g := f + [f[0]] + w;
        var r := RepairLoop(g, pending[1..]);
        assert g[..|f|] == f;
        assert IsSubstring(w, g) by {
          assert OccursAt(w, g, |f| + 1);
        }
        SubstringOfExtension(w, g, r.value);
        assert r.value[..|f|] == g[..|g|][..|f|];
        r
  }

  /** The repair step: nothing happens when every entry already occurs. */
  function Repair(f: string, slots: seq<string>): (r: Result<string, Fault>)
    ensures Covers(f, slots) ==> r == Success(f)
    ensures r.Failure? <==> |f| == 0 && exists i :: 0 <= i < |slots| && slots[i] != ""
    ensures r.Failure? ==> r.error == IndexOutOfRange
    ensures r.Success? ==> |f| <= |r.value| && r.value[..|f|] == f && Covers(r.value, slots)
  {
    if Covers(f, slots) then
      assert f[..|f|] == f;
      assert |f| == 0 ==> forall i :: 0 <= i < |slots| ==> slots[i] == "" by {
        forall i | 0 <= i < |slots| ensures |slots[i]| <= |f| {
          SubstringNonEmpty(slots[i], f);
        }
      }
      Success(f)
    else RepairLoop(f, slots)
  }

  // ---------------------------------------------------------------------
  // The whole method (bmwgroupcodingtaskakash.py lines 258-418).
  // ---------------------------------------------------------------------

  /** The description segments: the whole description string when there is
      no cue, otherwise the result of splitting it on the cues. */
  function DescriptionSegments(doc: Doc, splits: Splits): (segments: seq<string>)
    ensures |segments| > 0 || |Cues(doc.tokens)| > 0
  {
    if |Cues(doc.tokens)| == 0 then [Description(doc.tokens)] else splits.description
  }

  /** The prompt segments: the whole prompt when there is no cue, otherwise
      the result of splitting it on the cues. */
  function TextSegments(doc: Doc, splits: Splits, text: string): (segments: seq<string>)
    ensures |Cues(doc.tokens)| == 0 ==> segments == [text]
  {
    if |Cues(doc.tokens)| == 0 then [text] else splits.text
  }

  /** The boolean formula of an annotated prompt: resolve each description
      segment to a key, choose the grouping, assemble over the prompt
      segments, then append any key still missing. With no token the feature
      table has no columns. */
  function BooleanFormula(doc: Doc, splits: Splits, text: string, abbrs: Catalog, partial: Scorer): (r: Result<string, Fault>)
    ensures |doc.tokens| == 0 ==> r == Failure(MissingColumn)
    ensures |doc.tokens| > 0 && |abbrs| == 0 && |DescriptionSegments(doc, splits)| > 0 ==> r == Failure(EmptyMax)
    ensures r.Success? ==>
      var slots := Slots(abbrs, partial, DescriptionSegments(doc, splits));
      slots.Success? && Covers(r.value, slots.value)
  {
    if |doc.tokens| == 0 then Failure(MissingColumn)
    else
      var cues := Cues(doc.tokens);
      var slots :- Slots(abbrs, partial, DescriptionSegments(doc, splits));
      var mode :- GroupingMode(cues, doc.arcs);
      var segments := TextSegments(doc, splits, text);
      var acc :- Assemble(segments, cues, slots, mode, |segments|);
      Repair(acc.formula, slots)
  }

  /** When both "and" and "or" are cues but fewer than two `cc` arcs exist,
      the grouping step raises: on the missing `label` column without arcs,
      otherwise on the second flag lookup. */
  lemma GroupingRaises(doc: Doc, splits: Splits, text: string, abbrs: Catalog, partial: Scorer)
    requires |doc.tokens| > 0 && Slots(abbrs, partial, DescriptionSegments(doc, splits)).Success?
    requires "and" in Cues(doc.tokens) && "or" in Cues(doc.tokens) && |CcArcs(doc.arcs)| < 2
    ensures BooleanFormula(doc, splits, text, abbrs, partial) == Failure(if |doc.arcs| == 0 then MissingColumn else IndexOutOfRange)
  {
  }

  /** A single description segment gives a single slot. */
  lemma SingleSlot(abbrs: Catalog, partial: Scorer, d: string)
    requires |abbrs| > 0
    ensures Slots(abbrs, partial, [d]) == Success([Slot(abbrs, partial, d).value])
  {
    var r := Slots(abbrs, partial, [d]);
    assert Slot(abbrs, partial, [d][0]) == Success(r.value[0]);
    assert r.value == [r.value[0]];
  }

  /** A single prompt segment without cues assembles to its polarity and key. */
  lemma SingleAssembly(text: string, key: string)
    ensures var pol := NextPolarity("", text);
            var f := if key == "" then "" else pol + key;
            Assemble([text], [], [key], Plain, 1) == Success(Assembly(f, pol))
  {
    var pol := NextPolarity("", text);
    assert Assemble([text], [], [key], Plain, 0) == Success(Assembly("", ""));
    assert "" + "" + pol + "" + key + "" == pol + key;
  }

  /** Without conjunction cues the formula is the polarity of the prompt
      followed by the single resolved key (nothing when no key matched): no
      operator and no bracket. */
  lemma NoCuesSingleKey(doc: Doc, splits: Splits, text: string, abbrs: Catalog, partial: Scorer)
    requires |doc.tokens| > 0 && |abbrs| > 0
    requires forall i :: 0 <= i < |doc.tokens| ==> !IsCue(doc.tokens[i])
    ensures var key := Slot(abbrs, partial, Description(doc.tokens)).value;
            var formula := if key == "" then "" else NextPolarity("", text) + key;
            BooleanFormula(doc, splits, text, abbrs, partial) == Success(formula)
  {
    var key := Slot(abbrs, partial, Description(doc.tokens)).value;
    assert Cues(doc.tokens) == [];
    assert DescriptionSegments(doc, splits) == [Description(doc.tokens)];
    assert TextSegments(doc, splits, text) == [text];
    assert GroupingMode([], doc.arcs) == Success(Plain);
    SingleSlot(abbrs, partial, Description(doc.tokens));
    SingleAssembly(text, key);
    var f := if key == "" then "" else NextPolarity("", text) + key;
    assert Covers(f, [key]) by {
      if key == "" {
        assert OccursAt(key, f, 0);
      } else {
        SubstringOfItself(key);
        SubstringOfPart(key, NextPolarity("", text), key);
      }
    }
  }

  /** When the keys are separated, one per prompt segment, the formula is the
      rank-bracketed rendering: the repair step appends nothing. */
  lemma {:induction false} FormulaByRank(doc: Doc, splits: Splits, text: string, abbrs: Catalog, partial: Scorer)
    requires |doc.tokens| > 0
    requires Slots(abbrs, partial, DescriptionSegments(doc, splits)).Success?
    requires GroupingMode(Cues(doc.tokens), doc.arcs).Success?
    requires var slots := Slots(abbrs, partial, DescriptionSegments(doc, splits)).value;
             var segments := TextSegments(doc, splits, text);
             |slots| == |segments| <= |Cues(doc.tokens)| + 1 && Separated(slots)
    ensures var slots := Slots(abbrs, partial, DescriptionSegments(doc, splits)).value;
            var segments := TextSegments(doc, splits, text);
            var mode := GroupingMode(Cues(doc.tokens), doc.arcs).value;
            var rendered := Rendered(segments, Cues(doc.tokens), slots, mode, |segments|);
            BooleanFormula(doc, splits, text, abbrs, partial) == Success(rendered)
  {
    var cues := Cues(doc.tokens);
    var slots := Slots(abbrs, partial, DescriptionSegments(doc, splits)).value;
    var segments := TextSegments(doc, splits, text);
    var mode := GroupingMode(cues, doc.arcs).value;
    var n := |segments|;
    AssembleByRank(segments, cues, slots, mode, n);
    var f := Rendered(segments, cues, slots, mode, n);
    forall i | 0 <= i < |slots|
      ensures IsSubstring(slots[i], f)
    {
      if slots[i] == "" {
        assert OccursAt(slots[i], f, 0);
      } else {
        SubstringOfItself(slots[i]);
        RenderedKeys(segments, cues, slots, mode, n, i);
      }
    }
    assert Covers(f, slots);
  }

  /** A polarity sign followed by a symbol-free key holds no operator or bracket. */
  lemma SignedKeyCounts(pol: string, key: string)
    requires pol == "" || pol == "+" || pol == "-"
    requires SymbolFree(key)
    ensures Occurrences('/', pol + key) == 0 && Occurrences('(', pol + key) == 0 && Occurrences(')', pol + key) == 0
  {
    OccurrencesConcat('/', pol, key);
    OccurrencesConcat('(', pol, key);
    OccurrencesConcat(')', pol, key);
    OccurrencesSymbolFree('/', key);
    OccurrencesSymbolFree('(', key);
    OccurrencesSymbolFree(')', key);
  }

  /** Without conjunction cues and with symbol-free keys, the formula has no
      operator and no bracket. */
  lemma NoCuesNoOperators(doc: Doc, splits: Splits, text: string, abbrs: Catalog, partial: Scorer)
    requires |doc.tokens| > 0 && |abbrs| > 0
    requires forall i :: 0 <= i < |doc.tokens| ==> !IsCue(doc.tokens[i])
    requires forall i :: 0 <= i < |abbrs| ==> SymbolFree(abbrs[i].key)
    ensures BooleanFormula(doc, splits, text, abbrs, partial).Success?
    ensures var f := BooleanFormula(doc, splits, text, abbrs, partial).value;
            Occurrences('/', f) == 0 && Occurrences('(', f) == 0 && Occurrences(')', f) == 0
  {
    NoCuesSingleKey(doc, splits, text, abbrs, partial);
    var key := Slot(abbrs, partial, Description(doc.tokens)).value;
    if key != "" {
      var k :| 0 <= k < |abbrs| && Keys(abbrs)[k] == key;
      SignedKeyCounts(NextPolarity("", text), key);
    }
  }

  /** More prompt segments than slots, or than cues plus one, lead to the
      error path. */
  lemma TooManySegments(doc: Doc, splits: Splits, text: string, abbrs: Catalog, partial: Scorer)
    requires |doc.tokens| > 0
    requires Slots(abbrs, partial, DescriptionSegments(doc, splits)).Success?
    requires GroupingMode(Cues(doc.tokens), doc.arcs).Success?
    requires var n := |TextSegments(doc, splits, text)|;
             n > |Slots(abbrs, partial, DescriptionSegments(doc, splits)).value| || n > |Cues(doc.tokens)| + 1
    ensures BooleanFormula(doc, splits, text, abbrs, partial) == Failure(IndexOutOfRange)
  {
    var cues := Cues(doc.tokens);
    var slots := Slots(abbrs, partial, DescriptionSegments(doc, splits)).value;
    var segments := TextSegments(doc, splits, text);
    var mode := GroupingMode(cues, doc.arcs).value;
    AssembleFails(segments, cues, slots, mode, |segments|);
  }

  /** A failing assembly fails with an index error. */
  lemma {:induction false} AssembleFails(segments: seq<string>, cues: seq<string>, slots: seq<string>, mode: Grouping, n: nat)
    requires n <= |segments|
    requires Assemble(segments, cues, slots, mode, n).Failure?
    ensures Assemble(segments, cues, slots, mode, n) == Failure(IndexOutOfRange)
  {
    if n > 0 && Assemble(segments, cues, slots, mode, n - 1).Failure? {
      AssembleFails(segments, cues, slots, mode, n - 1);
    }
  }

  lemma NotSubstringOfSameLength(p: string, s: string)
    requires |p| == |s| && p != s
    ensures !IsSubstring(p, s)
  {
  }

  lemma NotSubstringOfPair(p: string, s: string)
    requires |p| == 2
    requires forall i :: 0 <= i < |s| - 1 ==> !(s[i] == p[0] && s[i + 1] == p[1])
    ensures !IsSubstring(p, s)
  {
    if IsSubstring(p, s) {
      var i :| 0 <= i <= |s| && OccursAt(p, s, i);
      OccurrenceChar(p, s, i, i);
      OccurrenceChar(p, s, i, i + 1);
    }
  }

  /** The keys of the handler's abbreviation dictionary. */
  const HandlerKeys: seq<string> := ["LL", "RL", "P337A", "P33BA", "P7LGA", "S402A", "S407A", "S403A"]

  lemma HandlerKeysListed()
    ensures Keys(AbbreviationCatalog) == HandlerKeys
  {
  }

  lemma HandlerKeysSymbolFree()
    ensures forall i :: 0 <= i < |HandlerKeys| ==> SymbolFree(HandlerKeys[i])
  {
  }

  /** No key of the handler's abbreviation dictionary occurs inside another. */
  lemma HandlerKeyPairApart(p: string, t: string)
    requires p in HandlerKeys && t in HandlerKeys && p != t
    ensures !IsSubstring(p, t)
  {
    if |p| == |t| {
      NotSubstringOfSameLength(p, t);
    } else if |p| > |t| {
      if IsSubstring(p, t) {
        SubstringNonEmpty(p, t);
      }
    } else {
      assert p == "LL" || p == "RL";
      NotSubstringOfPair(p, t);
    }
  }

  /** Past its first character, no handler key holds the first character of
      a key other than "LL". */
  lemma HandlerInnerChar(a: string, idx: nat, m: string)
    requires a in HandlerKeys && m in HandlerKeys && 0 < idx < |a| && a[idx] == m[0]
    ensures m == "LL"
  {
  }

  /** Only "LL" starts with 'L'. */
  lemma HandlerLeadingL(b: string)
    requires b in HandlerKeys && b[0] == 'L'
    ensures b == "LL"
  {
  }

  /** No handler key occurs across the junction of two other handler keys. */
  lemma HandlerKeyStraddle(m: string, a: string, b: string)
    requires m in HandlerKeys && a in HandlerKeys && b in HandlerKeys && m != b
    ensures !Straddles(m, a, b)
  {
    if Straddles(m, a, b) {
      var t :| 0 < t < |a| && 0 < |m| - t < |b| && m[..t] == a[|a| - t..] && m[t..] == b[..|m| - t];
      assert m[..t][0] == a[|a| - t..][0];
      HandlerInnerChar(a, |a| - t, m);
      assert m[t..][0] == b[..|m| - t][0];
      HandlerLeadingL(b);
    }
  }

  /** The handler's abbreviation keys are separated: a match list that
      repeats no key meets every condition of `Separated`. */
  lemma HandlerKeysApart(slots: seq<string>)
    requires forall i :: 0 <= i < |slots| ==> slots[i] == "" || slots[i] in Keys(AbbreviationCatalog)
    requires forall i, j :: 0 <= i < j < |slots| && slots[i] != "" ==> slots[i] != slots[j]
    ensures Separated(slots)
  {
    HandlerKeysListed();
    HandlerKeysSymbolFree();
    forall i, j | 0 <= i < |slots| && 0 <= j < |slots| && i != j && slots[i] != "" && slots[j] != ""
      ensures !IsSubstring(slots[i], slots[j])
    {
      HandlerKeyPairApart(slots[i], slots[j]);
    }
    forall i, j, k | 0 <= i < |slots| && 0 <= j < |slots| && 0 <= k < |slots| && k != i && k != j
      && slots[i] != "" && slots[j] != "" && slots[k] != ""
      ensures !Straddles(slots[k], slots[i], slots[j])
    {
      HandlerKeyStraddle(slots[k], slots[i], slots[j]);
    }
  }

  /** On the handler's catalog, with a match list that repeats no key, the
      brackets balance exactly when the group is complete. */
  lemma HandlerBracketsBalance(segments: seq<string>, cues: seq<string>, slots: seq<string>, mode: Grouping, n: nat)
    requires n <= |segments| && n <= |slots| && n <= |cues| + 1
    requires forall i :: 0 <= i < |slots| ==> slots[i] == "" || slots[i] in Keys(AbbreviationCatalog)
    requires forall i, j :: 0 <= i < j < |slots| && slots[i] != "" ==> slots[i] != slots[j]
    ensures Assemble(segments, cues, slots, mode, n).Success?
    ensures var f := Assemble(segments, cues, slots, mode, n).value.formula;
            Occurrences('(', f) == Occurrences(')', f)
            <==> mode == Plain || (mode == First && Rank(slots, n) != 1) || (mode == Second && Rank(slots, n) != 2)
  {
    HandlerKeysApart(slots);
    BracketsBalance(segments, cues, slots, mode, n);
  }
}

=== FILE: fuzzy.dfy ===
/** Similarity scores. The fuzzy-matching primitives themselves (`fuzz.ratio`,
    `fuzz.partial_ratio`) are parameters: any function into 0..100. */
module Fuzzy {

  /** A similarity score as the fuzzy matcher reports it. */
  type Score = s: int | 0 <= s <= 100

  /** A similarity primitive: `(pattern, text) -> score`. */
  type Scorer = (string, string) -> Score

  /** Python's `max(xs)` on a non-empty list. */
  function Max(xs: seq<int>): (m: int)
    requires |xs| > 0
    ensures exists i :: 0 <= i < |xs| && xs[i] == m
    ensures forall i :: 0 <= i < |xs| ==> xs[i] <= m
  {
    if |xs| == 1 then xs[0]
    else
      var rest := Max(xs[1..]);
      if xs[0] >= rest then xs[0] else rest
  }

  /** `len(xs) - xs[::-1].index(v) - 1`: the position of the last `v` in `xs`. */
  function LastIndexOf(xs: seq<int>, v: int): (k: nat)
    requires exists i :: 0 <= i < |xs| && xs[i] == v
    ensures k < |xs| && xs[k] == v
    ensures forall j :: k < j < |xs| ==> xs[j] != v
  {
    if xs[|xs| - 1] == v then |xs| - 1 else LastIndexOf(xs[..|xs| - 1], v)
  }

  /** The position the handler picks among the best scores: the last one. */
  function BestIndex(xs: seq<int>): (k: nat)
    requires |xs| > 0
    ensures k < |xs| && xs[k] == Max(xs)
    ensures forall j :: 0 <= j < |xs| ==> xs[j] <= xs[k]
    ensures forall j :: k < j < |xs| ==> xs[j] < xs[k]
  {
    LastIndexOf(xs, Max(xs))
  }

  /** On scores, the maximum is 100 exactly when some score is 100. */
  lemma MaxIsPerfect(xs: seq<Score>)
    requires |xs| > 0
    ensures Max(xs) == 100 <==> exists i :: 0 <= i < |xs| && xs[i] == 100
  {
    if Max(xs) == 100 {
      var i :| 0 <= i < |xs| && xs[i] == Max(xs);
    }
  }
}

=== FILE: model_codes.dfy ===
/** `Handler.get_model_codes`: which model-code catalog entries a prompt names,
    by an exact substring pass followed by a single-word fuzzy fallback. */
module ModelCodes {
  import opened Wrappers
  import opened Text
  import opened Fuzzy
  import opened Catalogs
  import opened Faults

  /** `s.replace(p, "")` applied `n` times, once per key sharing the phrase. */
  function RemoveAllTimes(s: string, p: string, n: nat): (r: string)
    ensures |r| <= |s|
    ensures n > 0 && |p| > 0 && IsSubstring(p, s) ==> |r| < |s|
    decreases n
  {
    if n == 0 then s else RemoveAllTimes(RemoveAll(s, p), p, n - 1)
  }

  /** The lower-cased phrases of entries `i..` that occur in `text`, with the
      removals of earlier matches applied: the exact pass (bmwgroupcodingtaskakash.py lines 208-213).
      Returns the keys appended and the text that remains. */
  function ExactFrom(models: Catalog, i: nat, text: string): (r: (seq<string>, string))
    requires i <= |models|
    ensures |r.1| <= |text|
    ensures forall k :: k in r.0 ==> k in Keys(models)
    ensures (forall j :: i <= j < |models| ==> |models[j].phrase| > 0) ==> (r.0 == [] <==> r.1 == text)
    decreases |models| - i
  {
    if i == |models| then ([], text)
    else
      var p := Lower(models[i].phrase);
      if IsSubstring(p, text) then
        var ks := KeysWithPhrase(models, models[i].phrase);
        assert |ks| > 0;
        var rest := ExactFrom(models, i + 1, RemoveAllTimes(text, p, |ks|));
        (ks + rest.0, rest.1)
      else
        ExactFrom(models, i + 1, text)
  }

  /** When no phrase from entry `i` on occurs in the text, the exact pass
      reports nothing and removes nothing. */
  lemma {:induction false} ExactNothingFound(models: Catalog, i: nat, text: string)
    requires i <= |models|
    requires forall j :: i <= j < |models| ==> !IsSubstring(Lower(models[j].phrase), text)
    ensures ExactFrom(models, i, text) == ([], text)
    decreases |models| - i
  {
    if i < |models| {
      ExactNothingFound(models, i + 1, text);
    }
  }

  /** When the phrase of entry `i` occurs in the text, the pass reports every
      key carrying that phrase, first and in catalog order, among them entry
      `i`'s own key. */
  lemma ExactReportsFound(models: Catalog, i: nat, text: string)
    requires i < |models| && IsSubstring(Lower(models[i].phrase), text)
    ensures var ks := KeysWithPhrase(models, models[i].phrase);
            var r := ExactFrom(models, i, text);
            |ks| <= |r.0| && r.0[..|ks|] == ks && models[i].key in r.0
  {
    var ks := KeysWithPhrase(models, models[i].phrase);
    var r := ExactFrom(models, i, text);
    assert r.0[..|ks|] == ks;
    assert models[i].key in ks;
  }

  /** On the handler's catalog the exact pass reports each model code at most
      once, in catalog order. */
  lemma HandlerExactInOrder(text: string)
    ensures IsSubsequence(ExactFrom(ModelCatalog, 0, text).0, Keys(ModelCatalog))
  {
    HandlerCatalogsDistinct();
    ExactInCatalogOrder(ModelCatalog, 0, text);
    assert Keys(ModelCatalog)[0..] == Keys(ModelCatalog);
  }

  /** `xs` is `ys` with some elements left out. */
  predicate IsSubsequence(xs: seq<string>, ys: seq<string>)
    decreases |ys|
  {
    |xs| == 0 || (|ys| > 0 && ((xs[0] == ys[0] && IsSubsequence(xs[1..], ys[1..])) || IsSubsequence(xs, ys[1..])))
  }

  /** With distinct phrases the exact pass reports each key at most once and in
      catalog order. */
  lemma {:induction false} ExactInCatalogOrder(models: Catalog, i: nat, text: string)
    requires DistinctPhrases(models) && i <= |models|
    ensures IsSubsequence(ExactFrom(models, i, text).0, Keys(models)[i..])
    decreases |models| - i
  {
    if i < |models| {
      var p := Lower(models[i].phrase);
      assert Keys(models)[i..][0] == models[i].key;
      assert Keys(models)[i..][1..] == Keys(models)[i + 1..];
      if IsSubstring(p, text) {
        KeysWithOwnPhrase(models, i);
        var rest := RemoveAllTimes(text, p, 1);
        ExactInCatalogOrder(models, i + 1, rest);
        var r := ExactFrom(models, i, text);
        assert r.0 == [models[i].key] + ExactFrom(models, i + 1, rest).0;
        assert r.0[1..] == ExactFrom(models, i + 1, rest).0;
      } else {
        ExactInCatalogOrder(models, i + 1, text);
      }
    }
  }

  /** The fallback test of one phrase: its first word scores exactly 100
      against some remaining word. */
  predicate FirstWordMatches(phrase: string, words: seq<string>, ratio: Scorer) {
    var ws := Words(Lower(phrase));
    |ws| > 0 && exists j :: 0 <= j < |words| && ratio(ws[0], words[j]) == 100
  }

  /** `[ratio(v, word) for word in words]`. */
  function ScoresAgainst(v: string, words: seq<string>, ratio: Scorer): (scores: seq<Score>)
    ensures |scores| == |words|
    ensures forall j :: 0 <= j < |words| ==> scores[j] == ratio(v, words[j])
  {
    seq(|words|, j requires 0 <= j < |words| => ratio(v, words[j]))
  }

  /** The fuzzy fallback over entries `i..` (bmwgroupcodingtaskakash.py lines 218-228): for each
      phrase only the first word is scored against the remaining words (the
      `break` ends the word loop after one word), and the phrase's keys are
      appended when the best score is 100. Taking the maximum of no scores
      raises. */
  function FallbackFrom(models: Catalog, i: nat, words: seq<string>, ratio: Scorer): (r: Result<seq<string>, Fault>)
    requires i <= |models|
    ensures r.Failure? <==> |words| == 0 && exists j :: i <= j < |models| && |Words(Lower(models[j].phrase))| > 0
    ensures r.Failure? ==> r.error == EmptyMax
    decreases |models| - i
  {
    if i == |models| then Success([])
    else
      var ws := Words(Lower(models[i].phrase));
      if |ws| == 0 then FallbackFrom(models, i + 1, words, ratio)
      else if |words| == 0 then Failure(EmptyMax)
      else
        var hit := Max(ScoresAgainst(ws[0], words, ratio)) == 100;
        // with words left, the later phrases cannot raise
        var more := FallbackFrom(models, i + 1, words, ratio).value;
        Success((if hit then KeysWithPhrase(models, models[i].phrase) else []) + more)
  }

  /** Entry `j` makes the fallback report key `k`. */
  predicate ReportedBy(models: Catalog, j: nat, words: seq<string>, ratio: Scorer, k: string)
    requires j < |models|
  {
    FirstWordMatches(models[j].phrase, words, ratio) && k in KeysWithPhrase(models, models[j].phrase)
  }

  /** Entry `i` contributes its keys exactly when it reports them. */
  lemma FallbackStep(models: Catalog, i: nat, words: seq<string>, ratio: Scorer, k: string)
    requires i < |models|
    requires FallbackFrom(models, i, words, ratio).Success?
    ensures FallbackFrom(models, i + 1, words, ratio).Success?
    ensures k in FallbackFrom(models, i, words, ratio).value
        <==> ReportedBy(models, i, words, ratio, k) || k in FallbackFrom(models, i + 1, words, ratio).value
  {
    var ws := Words(Lower(models[i].phrase));
    if |ws| > 0 {
      MaxIsPerfect(ScoresAgainst(ws[0], words, ratio));
      var more := FallbackFrom(models, i + 1, words, ratio).value;
      var hit := Max(ScoresAgainst(ws[0], words, ratio)) == 100;
      var head := if hit then KeysWithPhrase(models, models[i].phrase) else [];
      assert FallbackFrom(models, i, words, ratio).value == head + more;
      assert hit <==> FirstWordMatches(models[i].phrase, words, ratio);
    }
  }

  /** Some entry among `i..` reports `k`. */
  predicate ReportedFrom(models: Catalog, i: nat, words: seq<string>, ratio: Scorer, k: string)
    decreases |models| - i
  {
    i < |models| && (ReportedBy(models, i, words, ratio, k) || ReportedFrom(models, i + 1, words, ratio, k))
  }

  /** The fallback reports a key exactly when the first word of one of its
      phrases scores 100 against a remaining word. */
  lemma {:induction false} FallbackHits(models: Catalog, i: nat, words: seq<string>, ratio: Scorer, k: string)
    requires i <= |models|
    requires FallbackFrom(models, i, words, ratio).Success?
    ensures k in FallbackFrom(models, i, words, ratio).value <==> ReportedFrom(models, i, words, ratio, k)
    decreases |models| - i
  {
    if i < |models| {
      FallbackStep(models, i, words, ratio, k);
      FallbackHits(models, i + 1, words, ratio, k);
      assert ReportedFrom(models, i, words, ratio, k)
         <==> ReportedBy(models, i, words, ratio, k) || ReportedFrom(models, i + 1, words, ratio, k);
    } else {
      assert FallbackFrom(models, i, words, ratio) == Success([]);
    }
  }

  /** `get_model_codes` on the lower-cased prompt text: the exact pass, then the
      fallback when any text remains, on the remaining text with commas deleted. */
  function ModelCodes(models: Catalog, text: string, ratio: Scorer): (r: Result<seq<string>, Fault>)
    ensures var exact := ExactFrom(models, 0, text);
      && (r.Failure? <==> |exact.1| > 0 && |Words(RemoveAll(exact.1, ","))| == 0
                          && exists j :: 0 <= j < |models| && |Words(Lower(models[j].phrase))| > 0)
      && (r.Success? ==> |exact.0| <= |r.value| && r.value[..|exact.0|] == exact.0)
      && (r.Success? && |exact.1| == 0 ==> r.value == exact.0)
  {
    var exact := ExactFrom(models, 0, text);
    if |exact.1| > 0 then
      var more :- FallbackFrom(models, 0, Words(RemoveAll(exact.1, ",")), ratio);
      Success(exact.0 + more)
    else
      Success(exact.0)
  }

  /** A key is reported exactly when the exact pass names it, or text remains
      and the fallback reports it. */
  lemma ModelCodesReport(models: Catalog, text: string, ratio: Scorer, k: string)
    requires ModelCodes(models, text, ratio).Success?
    ensures var exact := ExactFrom(models, 0, text);
      k in ModelCodes(models, text, ratio).value
      <==> k in exact.0 || (|exact.1| > 0 && ReportedFrom(models, 0, Words(RemoveAll(exact.1, ",")), ratio, k))
  {
    var exact := ExactFrom(models, 0, text);
    if |exact.1| > 0 {
      FallbackHits(models, 0, Words(RemoveAll(exact.1, ",")), ratio, k);
    }
  }
}

=== FILE: text.dfy ===
/** The handful of Python `str` operations the handler relies on, with Python's
    semantics: `lower`, `split()`, `join`, `in`, `replace` and `strip`. */
module Text {

  /** `c.lower()` for the ASCII letters. */
  function LowerChar(c: char): char {
    if 'A' <= c <= 'Z' then (c as int + 32) as char else c
  }

  /** `s.lower()`: same length, each ASCII capital replaced by its small letter. */
  function Lower(s: string): (r: string)
    ensures |r| == |s|
  {
    seq(|s|, i requires 0 <= i < |s| => LowerChar(s[i]))
  }

  /** The characters Python's argument-less `str.split()` treats as separators
      (the ASCII ones, the information separators, NEL and NBSP). */
  predicate IsSpace(c: char) {
    c == ' ' || c == '\t' || c == '\n' || c == '\r'
    || c as int == 0x0B || c as int == 0x0C
    || 0x1C <= c as int <= 0x1F || c as int == 0x85 || c as int == 0xA0
  }

  /** A non-empty run of non-separator characters. */
  predicate IsWord(w: string) {
    |w| > 0 && forall i :: 0 <= i < |w| ==> !IsSpace(w[i])
  }

  /** Length of the longest separator-free prefix of `s`. */
  function WordLength(s: string): (n: nat)
    ensures n <= |s|
    ensures forall i :: 0 <= i < n ==> !IsSpace(s[i])
    ensures n < |s| ==> IsSpace(s[n])
  {
    if |s| == 0 || IsSpace(s[0]) then 0 else 1 + WordLength(s[1..])
  }

  /** `s.split()`: the maximal separator-free runs of `s`, left to right. */
  function Words(s: string): (ws: seq<string>)
    ensures forall i :: 0 <= i < |ws| ==> IsWord(ws[i])
    decreases |s|
  {
    if |s| == 0 then []
    else if IsSpace(s[0]) then Words(s[1..])
    else
      var n := WordLength(s);
      [s[..n]] + Words(s[n..])
  }

  lemma {:induction false} WordLengthOfWord(w: string, t: string)
    requires forall i :: 0 <= i < |w| ==> !IsSpace(w[i])
    requires |t| == 0 || IsSpace(t[0])
    ensures WordLength(w + t) == |w|
    decreases |w|
  {
    if |w| > 0 {
      assert (w + t)[1..] == w[1..] + t;
      WordLengthOfWord(w[1..], t);
    } else {
      assert w + t == t;
    }
  }

  /** A word followed by a space splits off as the first word. */
  lemma WordsOfSpaced(w: string, rest: string)
    requires IsWord(w)
    ensures Words(w + " " + rest) == [w] + Words(rest)
  {
    var s := w + " " + rest;
    WordLengthOfWord(w, " " + rest);
    assert s == w + (" " + rest);
    assert s[..|w|] == w;
    assert s[|w|..] == " " + rest;
    assert (" " + rest)[1..] == rest;
  }

  /** A single word splits to itself. */
  lemma WordsOfWord(w: string)
    requires IsWord(w)
    ensures Words(w) == [w]
  {
    WordLengthOfWord(w, "");
    assert w + "" == w;
  }

  /** `sep.join(ws)`. */
  function Join(sep: string, ws: seq<string>): string {
    if |ws| == 0 then ""
    else if |ws| == 1 then ws[0]
    else ws[0] + sep + Join(sep, ws[1..])
  }

  /** Joining one more string adds the separator and that string, unless
      nothing was joined before. */
  lemma {:induction false} JoinAppend(sep: string, ws: seq<string>, w: string)
    ensures Join(sep, ws + [w]) == if |ws| == 0 then w else Join(sep, ws) + sep + w
    decreases |ws|
  {
    if |ws| == 0 {
      assert ws + [w] == [w];
    } else if |ws| == 1 {
      assert (ws + [w])[1..] == [w];
    } else {
      assert (ws + [w])[1..] == ws[1..] + [w];
      JoinAppend(sep, ws[1..], w);
    }
  }

  /** `''.join(ws)`. */
  function Concat(ws: seq<string>): string {
    if |ws| == 0 then "" else ws[0] + Concat(ws[1..])
  }

  /** Each joined string occurs in the concatenation. */
  lemma {:induction false} ConcatHolds(ws: seq<string>, i: nat)
    requires i < |ws|
    ensures IsSubstring(ws[i], Concat(ws))
    decreases i
  {
    if i == 0 {
      assert OccursAt(ws[0], Concat(ws), 0);
    } else {
      ConcatHolds(ws[1..], i - 1);
      SubstringOfPart(ws[i], ws[0], Concat(ws[1..]));
    }
  }

  /** Lower-casing keeps every occurrence. */
  lemma LowerKeepsSubstring(p: string, s: string)
    requires IsSubstring(p, s)
    ensures IsSubstring(Lower(p), Lower(s))
  {
    var i :| 0 <= i <= |s| && OccursAt(p, s, i);
    assert Lower(s)[i..i + |p|] == Lower(p);
    assert OccursAt(Lower(p), Lower(s), i);
  }

  /** A string whose first character is missing from every position where it
      could start does not occur. */
  lemma AbsentByFirst(p: string, s: string)
    requires |p| > 0
    requires forall j :: 0 <= j <= |s| - |p| ==> s[j] != p[0]
    ensures !IsSubstring(p, s)
  {
    forall j | 0 <= j <= |s|
      ensures !OccursAt(p, s, j)
    {
      if j + |p| <= |s| {
        assert s[j..j + |p|][0] == s[j];
      }
    }
  }

  /** `''.join(s.split())`: `s` with every separator removed. */
  function RemoveWhitespace(s: string): string {
    Concat(Words(s))
  }

  /** `p` occurs in `s` starting at index `i`. */
  predicate OccursAt(p: string, s: string, i: int) {
    0 <= i && i + |p| <= |s| && s[i..i + |p|] == p
  }

  /** Python's `p in s`. The empty string occurs in every string. */
  predicate IsSubstring(p: string, s: string) {
    exists i | 0 <= i <= |s| :: OccursAt(p, s, i)
  }

  lemma SubstringOfTail(p: string, s: string)
    requires |s| > 0 && IsSubstring(p, s[1..])
    ensures IsSubstring(p, s)
  {
    var i :| 0 <= i <= |s[1..]| && OccursAt(p, s[1..], i);
    assert s[i + 1..i + 1 + |p|] == s[1..][i..i + |p|];
    assert OccursAt(p, s, i + 1);
  }

  lemma SubstringInTail(p: string, s: string)
    requires IsSubstring(p, s) && !OccursAt(p, s, 0)
    ensures |s| > 0 && IsSubstring(p, s[1..])
  {
    var i :| 0 <= i <= |s| && OccursAt(p, s, i);
    assert i > 0;
    assert s[1..][i - 1..i - 1 + |p|] == s[i..i + |p|];
    assert OccursAt(p, s[1..], i - 1);
  }

  /** Every occurrence in a part of a string is an occurrence in the whole. */
  lemma SubstringOfPart(p: string, a: string, b: string)
    ensures IsSubstring(p, a) ==> IsSubstring(p, a + b)
    ensures IsSubstring(p, b) ==> IsSubstring(p, a + b)
  {
    if IsSubstring(p, a) {
      var i :| 0 <= i <= |a| && OccursAt(p, a, i);
      assert (a + b)[i..i + |p|] == a[i..i + |p|];
      assert OccursAt(p, a + b, i);
    }
    if IsSubstring(p, b) {
      var i :| 0 <= i <= |b| && OccursAt(p, b, i);
      assert (a + b)[|a| + i..|a| + i + |p|] == b[i..i + |p|];
      assert OccursAt(p, a + b, |a| + i);
    }
  }

  lemma SubstringNonEmpty(p: string, s: string)
    requires IsSubstring(p, s)
    ensures |p| <= |s|
  {
  }

  /** `s.replace(p, "")`: the leftmost non-overlapping occurrences of `p` are
      deleted; an empty `p` leaves `s` unchanged. */
  function RemoveAll(s: string, p: string): (r: string)
    ensures |r| <= |s|
    ensures !IsSubstring(p, s) ==> r == s
    ensures |p| > 0 && IsSubstring(p, s) ==> |r| < |s|
    decreases |s|
  {
    if |p| == 0 || |s| < |p| then s
    else if s[..|p|] == p then
      assert OccursAt(p, s, 0);
      RemoveAll(s[|p|..], p)
    else
      var r := [s[0]] + RemoveAll(s[1..], p);
      assert IsSubstring(p, s[1..]) ==> IsSubstring(p, s) by {
        if IsSubstring(p, s[1..]) { SubstringOfTail(p, s); }
      }
      assert IsSubstring(p, s) ==> IsSubstring(p, s[1..]) by {
        if IsSubstring(p, s) { SubstringInTail(p, s); }
      }
      r
  }

  /** `s.replace(p, "", 1)`: the first occurrence of `p` is deleted. */
  function RemoveFirst(s: string, p: string): (r: string)
    ensures !IsSubstring(p, s) ==> r == s
    ensures IsSubstring(p, s) ==> |r| == |s| - |p|
    decreases |s|
  {
    if |p| == 0 || |s| < |p| then s
    else if s[..|p|] == p then
      assert OccursAt(p, s, 0);
      s[|p|..]
    else
      var r := [s[0]] + RemoveFirst(s[1..], p);
      assert IsSubstring(p, s[1..]) ==> IsSubstring(p, s) by {
        if IsSubstring(p, s[1..]) { SubstringOfTail(p, s); }
      }
      assert IsSubstring(p, s) ==> IsSubstring(p, s[1..]) by {
        if IsSubstring(p, s) { SubstringInTail(p, s); }
      }
      r
  }

  /** Occurrences in the tail are the occurrences in the whole shifted by one. */
  lemma OccursShift(p: string, s: string, j: nat)
    requires |s| > 0
    ensures OccursAt(p, s[1..], j) <==> OccursAt(p, s, j + 1)
  {
    if j + |p| <= |s| - 1 {
      assert s[1..][j..j + |p|] == s[j + 1..j + 1 + |p|];
    }
  }

  /** Without an occurrence at the front, the first character is kept. */
  lemma RemoveFirstKeepsHead(s: string, p: string)
    requires |p| > 0 && |s| > 0 && !OccursAt(p, s, 0)
    ensures RemoveFirst(s, p) == [s[0]] + RemoveFirst(s[1..], p)
  {
    if |s| >= |p| {
      assert s[..|p|] != p;
    } else {
      assert [s[0]] + s[1..] == s;
    }
  }

  /** Deleting the first occurrence splices the text around the leftmost
      occurrence of `p`. */
  lemma {:induction false} RemoveFirstSplices(s: string, p: string, i: nat)
    requires |p| > 0 && OccursAt(p, s, i)
    requires forall j :: 0 <= j < i ==> !OccursAt(p, s, j)
    ensures RemoveFirst(s, p) == s[..i] + s[i + |p|..]
    decreases i
  {
    if i == 0 {
      assert s[..|p|] == p;
    } else {
      assert !OccursAt(p, s, 0);
      RemoveFirstKeepsHead(s, p);
      OccursShift(p, s, i - 1);
      forall j | 0 <= j < i - 1
        ensures !OccursAt(p, s[1..], j)
      {
        OccursShift(p, s, j);
      }
      RemoveFirstSplices(s[1..], p, i - 1);
      assert [s[0]] + s[1..][..i - 1] == s[..i];
      assert s[1..][i - 1 + |p|..] == s[i + |p|..];
    }
  }

  /** Without an occurrence at the front, `replace` keeps the first character. */
  lemma RemoveAllKeepsHead(s: string, p: string)
    requires |p| > 0 && |s| > 0 && !OccursAt(p, s, 0)
    ensures RemoveAll(s, p) == [s[0]] + RemoveAll(s[1..], p)
  {
    if |s| >= |p| {
      assert s[..|p|] != p;
    } else {
      assert [s[0]] + s[1..] == s;
    }
  }

  /** `i` is the leftmost occurrence of `p` in `s`. */
  predicate Leftmost(p: string, s: string, i: nat) {
    OccursAt(p, s, i) && forall j :: 0 <= j < i ==> !OccursAt(p, s, j)
  }

  /** The leftmost occurrence at `i > 0` is the leftmost one of the tail, at
      `i - 1`. */
  lemma LeftmostInTail(p: string, s: string, i: nat)
    requires 0 < i && Leftmost(p, s, i)
    ensures Leftmost(p, s[1..], i - 1) && !OccursAt(p, s, 0)
  {
    OccursShift(p, s, i - 1);
    forall j | 0 <= j < i - 1
      ensures !OccursAt(p, s[1..], j)
    {
      OccursShift(p, s, j);
    }
  }

  /** Deleting every occurrence keeps the text before the leftmost occurrence
      of `p`, drops that occurrence and goes on after it. */
  lemma RemoveAllSplices(s: string, p: string, i: nat)
    requires |p| > 0 && Leftmost(p, s, i)
    ensures RemoveAll(s, p) == s[..i] + RemoveAll(s[i + |p|..], p)
  {
    SplicedFrom(s, p, i);
  }

  predicate Spliced(s: string, p: string, i: nat)
    requires i + |p| <= |s|
  {
    RemoveAll(s, p) == s[..i] + RemoveAll(s[i + |p|..], p)
  }

  lemma {:induction false} SplicedFrom(s: string, p: string, i: nat)
    requires |p| > 0 && Leftmost(p, s, i)
    ensures Spliced(s, p, i)
    decreases i
  {
    if i == 0 {
      RemoveAllAtFront(s, p);
    } else {
      LeftmostInTail(p, s, i);
      SplicedFrom(s[1..], p, i - 1);
      RemoveAllHeadStep(s, p, i);
    }
  }

  /** An occurrence at the front is dropped whole. */
  lemma RemoveAllAtFront(s: string, p: string)
    requires |p| > 0 && OccursAt(p, s, 0)
    ensures RemoveAll(s, p) == s[..0] + RemoveAll(s[|p|..], p)
  {
    assert s[..|p|] == p;
    assert s[..0] + RemoveAll(s[|p|..], p) == RemoveAll(s[|p|..], p);
  }

  /** One step of the splice: the kept first character joins the spliced
      tail. */
  lemma RemoveAllHeadStep(s: string, p: string, i: nat)
    requires |p| > 0 && 0 < i && OccursAt(p, s, i) && !OccursAt(p, s, 0)
    requires Spliced(s[1..], p, i - 1)
    ensures Spliced(s, p, i)
  {
    RemoveAllKeepsHead(s, p);
    assert s[1..][i - 1 + |p|..] == s[i + |p|..];
    ConsSplice(s, i, RemoveAll(s[i + |p|..], p));
  }

  lemma ConsSplice(s: string, i: nat, b: string)
    requires 0 < i <= |s|
    ensures [s[0]] + (s[1..][..i - 1] + b) == s[..i] + b
  {
    assert [s[0]] + s[1..][..i - 1] == s[..i];
  }

  /** `for w in ws: s = s.replace(w, "", 1)`. */
  function RemoveEachFirst(s: string, ws: seq<string>): (r: string)
    ensures |r| <= |s|
    ensures |r| == |s| ==> r == s
    decreases |ws|
  {
    if |ws| == 0 then s else RemoveEachFirst(RemoveFirst(s, ws[0]), ws[1..])
  }

  /** `s.lstrip(cs)`: the longest suffix of `s` not starting with a character of `cs`. */
  function StripLeft(s: string, cs: set<char>): (r: string)
    ensures |r| <= |s| && r == s[|s| - |r|..]
    ensures forall k :: 0 <= k < |s| - |r| ==> s[k] in cs
    ensures |r| == 0 || r[0] !in cs
  {
    if |s| > 0 && s[0] in cs then StripLeft(s[1..], cs) else s
  }

  /** `s.rstrip(cs)`: the longest prefix of `s` not ending with a character of `cs`. */
  function StripRight(s: string, cs: set<char>): (r: string)
    ensures |r| <= |s| && r == s[..|r|]
    ensures forall k :: |r| <= k < |s| ==> s[k] in cs
    ensures |r| == 0 || r[|r| - 1] !in cs
  {
    if |s| > 0 && s[|s| - 1] in cs then StripRight(s[..|s| - 1], cs) else s
  }

  /** `s.strip(cs)`. */
  function Strip(s: string, cs: set<char>): string {
    StripRight(StripLeft(s, cs), cs)
  }
}

=== FILE: validation.dfy ===
/** The validation pipeline of the handler (`validator`) as a transformer of
    the handler's state, and the request body built from the final state
    (`get_request_body`). */
module Validation {
  import opened Wrappers
  import opened Text
  import opened Faults
  import opened Annotation
  import opened Catalogs
  import opened Fuzzy
  import ModelCodes
  import Formula
  import Dates

  /** The handler's fields: `response` (1 as `ok == true`, 0 as `false`),
      `message`, `model_code`, `boolean_formula` and `dates`. */
  datatype State = State(ok: bool, message: string, codes: seq<string>, formula: string, date: string)

  /** The state right after construction. */
  const Initial := State(false, "", [], "", "")

  const NoModelCode := "Prompt doesn't include one of the sales description provided, Please check!"
  const NoFormula := "Prompt doesn't include a valid abbreviation description, Please check!"
  const NoDate := "Prompt doesn't include a valid date, Please check!"
  const ModelCodesError := "Error encountered while parsing for model code in 'get_model_codes' method"
  const FormulaError := "Error encountered while parsing for a valid abbreviation description in 'get_boolean_formula' method"
  const DateError := "Error encountered while parsing for date in 'get_parse_dates' method"

  function OovMessage(word: string): string {
    "Prompt has some Out-of Vocabulary words: " + word + ", Please check!"
  }

  /** Every message is appended after a ". " separator. */
  function Append(s: State, text: string): (r: State)
    ensures r.message == s.message + ". " + text
    ensures r.(message := s.message) == s
    ensures Extends(s, r)
  {
    var m := s.message + ". " + text;
    assert m[..|s.message| + 2] == s.message + ". ";
    s.(message := m)
  }

  /** Messages only grow, and every growth starts with the ". " separator. */
  predicate Extends(s: State, r: State) {
    r.message == s.message
    || (|s.message| + 2 <= |r.message| && r.message[..|s.message| + 2] == s.message + ". ")
  }

  /** The text the vocabulary check consults: the model-code phrases,
      concatenated without separator, lower-cased. */
  function KnownText(models: Catalog): string {
    Lower(Concat(Phrases(models)))
  }

  function Phrases(models: Catalog): (ps: seq<string>)
    ensures |ps| == |models| && forall i :: 0 <= i < |models| ==> ps[i] == models[i].phrase
  {
    seq(|models|, i requires 0 <= i < |models| => models[i].phrase)
  }

  /** The known text holds every lower-cased model phrase. */
  lemma KnownTextHolds(models: Catalog, i: nat)
    requires i < |models|
    ensures IsSubstring(Lower(models[i].phrase), KnownText(models))
  {
    ConcatHolds(Phrases(models), i);
    LowerKeepsSubstring(models[i].phrase, Concat(Phrases(models)));
  }

  /** Because the phrases are joined without a separator, a word made of the
      end of one phrase and the start of the next counts as known: "50ix"
      occurs in no model phrase, yet it occurs in the known text. */
  lemma KnownTextStraddles()
    ensures IsSubstring("50ix", KnownText(ModelCatalog))
    ensures forall i :: 0 <= i < |ModelCatalog| ==> !IsSubstring("50ix", Lower(ModelCatalog[i].phrase))
  {
    var phrases := Phrases(ModelCatalog);
    var c := Concat(phrases);
    assert phrases[0] == "iX xDrive50" && phrases[1..][0] == "iX xDrive40";
    var rest := Concat(phrases[1..][1..]);
    assert Concat(phrases[1..]) == "iX xDrive40" + rest;
    assert c == "iX xDrive50" + ("iX xDrive40" + rest);
    assert c[9..13] == "50iX";
    assert OccursAt("50ix", KnownText(ModelCatalog), 9);
    NoPhraseHolds("50ix");
  }

  /** A word of three or more characters starting with "5" occurs in no model
      phrase, as the only "5" is the next-to-last character of the first one. */
  lemma NoPhraseHolds(w: string)
    requires 2 < |w| && w[0] == '5'
    ensures forall i :: 0 <= i < |ModelCatalog| ==> !IsSubstring(w, Lower(ModelCatalog[i].phrase))
  {
    forall i | 0 <= i < |ModelCatalog|
      ensures !IsSubstring(w, Lower(ModelCatalog[i].phrase))
    {
      var s := Lower(ModelCatalog[i].phrase);
      forall j | 0 <= j <= |s| - |w|
        ensures s[j] != w[0]
      {
        assert s[j] == LowerChar(ModelCatalog[i].phrase[j]);
      }
      AbsentByFirst(w, s);
    }
  }

  /** The vocabulary scan: each in-vocabulary token sets `response` to 1; the
      first out-of-vocabulary token ends the scan, and, when it does not occur
      in the known text, resets `response` and names it in the message. */
  function Vocabulary(s: State, tokens: seq<Token>, known: string): (r: State)
    ensures r.codes == s.codes && r.formula == s.formula && r.date == s.date
    ensures Extends(s, r)
    decreases |tokens|
  {
    if |tokens| == 0 then s
    else if tokens[0].oov then
      if !IsSubstring(tokens[0].text, known) then Append(s.(ok := false), OovMessage(tokens[0].text)) else s
    else Vocabulary(s.(ok := true), tokens[1..], known)
  }

  /** The position of the first out-of-vocabulary token, `|tokens|` if none. */
  function FirstOov(tokens: seq<Token>): (k: nat)
    ensures k <= |tokens|
    ensures forall i :: 0 <= i < k ==> !tokens[i].oov
    ensures k < |tokens| ==> tokens[k].oov
  {
    if |tokens| == 0 || tokens[0].oov then 0 else 1 + FirstOov(tokens[1..])
  }

  /** The vocabulary scan accepts when the first out-of-vocabulary token, if
      any, occurs in the known text and some token precedes it (or `response`
      was already 1); it appends a message exactly when that token is unknown. */
  lemma {:induction false} VocabularyOutcome(s: State, tokens: seq<Token>, known: string)
    ensures var k := FirstOov(tokens);
            var unknown := k < |tokens| && !IsSubstring(tokens[k].text, known);
            && Vocabulary(s, tokens, known).ok == (!unknown && (k > 0 || s.ok))
            && Vocabulary(s, tokens, known).message
               == s.message + (if unknown then ". " + OovMessage(tokens[k].text) else "")
    decreases |tokens|
  {
    if |tokens| > 0 && !tokens[0].oov {
      VocabularyOutcome(s.(ok := true), tokens[1..], known);
      assert FirstOov(tokens) == 1 + FirstOov(tokens[1..]);
      assert forall i :: 0 <= i < |tokens| - 1 ==> tokens[1..][i] == tokens[i + 1];
    }
  }

  /** The model-code stage, run only while `response` is 1, given what
      `get_model_codes` returns or raises: a raised error appends the method's
      error message and the error text; the codes are then left as they were,
      so the emptiness check that follows still runs and, on an empty list,
      appends its own message too. */
  function ModelStage(s: State, outcome: Result<seq<string>, Fault>, detail: Fault -> string): (r: State)
    ensures !s.ok ==> r == s
    ensures Extends(s, r)
    ensures r.formula == s.formula && r.date == s.date
    ensures s.ok ==> (r.ok <==> outcome.Success? && |outcome.value| > 0)
    ensures s.ok && outcome.Success? && |outcome.value| > 0 ==> r == s.(codes := outcome.value)
    ensures s.ok && outcome.Failure? ==>
      && r.codes == s.codes
      && r.message == s.message + ". " + ModelCodesError + ". " + detail(outcome.error)
                      + (if |s.codes| == 0 then ". " + NoModelCode else "")
    ensures s.ok && outcome == Success([]) ==> r.message == s.message + ". " + NoModelCode
  {
    if !s.ok then s
    else match outcome
      case Failure(e) =>
        var t0 := Append(s.(ok := false), ModelCodesError);
        var t := Append(t0, detail(e));
        ExtendsTransitive(s, t0, t);
        var u := if |s.codes| == 0 then Append(t, NoModelCode) else t;
        ExtendsTransitive(s, t, u);
        u
      case Success(codes) =>
        if |codes| == 0 then Append(s.(codes := codes, ok := false), NoModelCode)
        else s.(codes := codes)
  }

  /** The formula stage, run only while `response` is 1, given what
      `get_boolean_formula` returns or raises: a raised error clears the
      formula and appends the method's error message and the error text,
      after which the emptiness check appends its own message too; an empty
      formula appends that message alone. */
  function FormulaStage(s: State, outcome: Result<string, Fault>, detail: Fault -> string): (r: State)
    ensures !s.ok ==> r == s
    ensures Extends(s, r)
    ensures r.codes == s.codes && r.date == s.date
    ensures s.ok ==> (r.ok <==> outcome.Success? && |outcome.value| > 0)
    ensures s.ok && outcome.Success? && |outcome.value| > 0 ==> r == s.(formula := outcome.value)
    ensures s.ok && outcome.Failure? ==>
      && r.formula == ""
      && r.message == s.message + ". " + FormulaError + ". " + detail(outcome.error) + ". " + NoFormula
    ensures s.ok && outcome == Success("") ==> r.message == s.message + ". " + NoFormula
  {
    if !s.ok then s
    else match outcome
      case Failure(e) =>
        var t0 := Append(s.(ok := false, formula := ""), FormulaError);
        var t := Append(t0, detail(e));
        ExtendsTransitive(s, t0, t);
        var u := Append(t, NoFormula);
        ExtendsTransitive(s, t, u);
        u
      case Success(f) =>
        if |f| == 0 then Append(s.(formula := f, ok := false), NoFormula)
        else s.(formula := f)
  }

  /** The date stage, run only while `response` is 1, given what
      `get_parsed_dates` returns or raises: a raised error appends the
      method's error message and the error text and leaves the date as it
      was, so an empty date then appends its own message too. */
  function DateStage(s: State, outcome: Result<string, Fault>, detail: Fault -> string): (r: State)
    ensures !s.ok ==> r == s
    ensures Extends(s, r)
    ensures r.codes == s.codes && r.formula == s.formula
    ensures s.ok ==> (r.ok <==> outcome.Success? && |outcome.value| > 0)
    ensures s.ok && outcome.Success? && |outcome.value| > 0 ==> r == s.(date := outcome.value)
    ensures s.ok && outcome.Failure? ==>
      && r.date == s.date
      && r.message == s.message + ". " + DateError + ". " + detail(outcome.error)
                      + (if |s.date| == 0 then ". " + NoDate else "")
    ensures s.ok && outcome == Success("") ==> r.message == s.message + ". " + NoDate
  {
    if !s.ok then s
    else match outcome
      case Failure(e) =>
        var t0 := Append(s.(ok := false), DateError);
        var t := Append(t0, detail(e));
        ExtendsTransitive(s, t0, t);
        var u := if |s.date| == 0 then Append(t, NoDate) else t;
        ExtendsTransitive(s, t, u);
        u
      case Success(d) =>
        if |d| == 0 then Append(s.(date := d, ok := false), NoDate)
        else s.(date := d)
  }

  /** Everything the pipeline receives besides the state: the lower-cased
      prompt, its annotation, the two cue splits, the two catalogs, the
      similarity primitives, the date search and the error texts. */
  datatype Inputs = Inputs(
    text: string, doc: Doc, splits: Splits,
    models: Catalog, abbrs: Catalog,
    ratio: Scorer, partial: Scorer, search: Dates.DateSearch,
    detail: Fault -> string)

  /** `validator`: the vocabulary scan, then the model-code, formula and date
      stages in that order, each gated on `response`. The message only grows,
      each addition after ". "; an accepted prompt leaves no message and
      non-empty codes, formula and date. */
  function Validate(x: Inputs): (r: State)
    ensures Extends(Initial, r)
    ensures r.ok ==> r.message == "" && |r.codes| > 0 && |r.formula| > 0 && |r.date| > 0
  {
    var s1 := Vocabulary(Initial, x.doc.tokens, KnownText(x.models));
    var s2 := ModelStage(s1, ModelCodes.ModelCodes(x.models, x.text, x.ratio), x.detail);
    var s3 := FormulaStage(s2, Formula.BooleanFormula(x.doc, x.splits, x.text, x.abbrs, x.partial), x.detail);
    var s4 := DateStage(s3, Dates.ParsedDate(x.doc.entities, x.text, x.search), x.detail);
    VocabularyOutcome(Initial, x.doc.tokens, KnownText(x.models));
    ExtendsTransitive(Initial, s1, s2);
    ExtendsTransitive(Initial, s2, s3);
    ExtendsTransitive(Initial, s3, s4);
    s4
  }

  lemma ExtendsTransitive(a: State, b: State, c: State)
    requires Extends(a, b) && Extends(b, c)
    ensures Extends(a, c)
  {
    if b.message != a.message && c.message != b.message {
      assert c.message[..|a.message| + 2] == c.message[..|b.message| + 2][..|a.message| + 2];
    }
  }

  /** The pipeline accepts exactly when the vocabulary scan accepts and every
      stage produces a non-empty result; then the state holds those results
      and no message. */
  lemma {:induction false} ValidateOutcome(x: Inputs)
    ensures var r := Validate(x);
            var codes := ModelCodes.ModelCodes(x.models, x.text, x.ratio);
            var formula := Formula.BooleanFormula(x.doc, x.splits, x.text, x.abbrs, x.partial);
            var date := Dates.ParsedDate(x.doc.entities, x.text, x.search);
            (r.ok <==> && Vocabulary(Initial, x.doc.tokens, KnownText(x.models)).ok
                       && codes.Success? && |codes.value| > 0
                       && formula.Success? && |formula.value| > 0
                       && date.Success? && |date.value| > 0)
            && (r.ok ==> r == State(true, "", codes.value, formula.value, date.value))
  {
    VocabularyOutcome(Initial, x.doc.tokens, KnownText(x.models));
  }

  /** When the model-code method raises on a prompt the vocabulary scan
      accepts, the message names the method's error, the error text and, as the
      code list is still empty, the missing model code. */
  lemma ModelCodesRaised(x: Inputs)
    requires Vocabulary(Initial, x.doc.tokens, KnownText(x.models)).ok
    requires ModelCodes.ModelCodes(x.models, x.text, x.ratio).Failure?
    ensures var e := ModelCodes.ModelCodes(x.models, x.text, x.ratio).error;
            var r := Validate(x);
            !r.ok && r.message == ". " + ModelCodesError + ". " + x.detail(e) + ". " + NoModelCode
  {
    VocabularyOutcome(Initial, x.doc.tokens, KnownText(x.models));
    RaisedFirst(Vocabulary(Initial, x.doc.tokens, KnownText(x.models)),
      ModelCodes.ModelCodes(x.models, x.text, x.ratio),
      Formula.BooleanFormula(x.doc, x.splits, x.text, x.abbrs, x.partial),
      Dates.ParsedDate(x.doc.entities, x.text, x.search), x.detail);
  }

  /** Once the model-code stage has failed, the later stages add nothing. */
  lemma RaisedFirst(s: State, codes: Result<seq<string>, Fault>, formula: Result<string, Fault>,
                    date: Result<string, Fault>, detail: Fault -> string)
    requires s.ok && s.message == "" && |s.codes| == 0 && codes.Failure?
    ensures var r := DateStage(FormulaStage(ModelStage(s, codes, detail), formula, detail), date, detail);
            !r.ok && r.message == ". " + ModelCodesError + ". " + detail(codes.error) + ". " + NoModelCode
  {
    var s2 := ModelStage(s, codes, detail);
    assert s2.message == ". " + ModelCodesError + ". " + detail(codes.error) + ". " + NoModelCode by {
      assert s.message + ". " == ". ";
    }
    var s3 := FormulaStage(s2, formula, detail);
    assert s3 == s2;
    var s4 := DateStage(s3, date, detail);
    assert s4 == s2;
  }

  /** A rejection without any message happens exactly when the prompt has no
      token or its first token is an out-of-vocabulary word of the known text. */
  lemma SilentRejection(x: Inputs)
    ensures var r := Validate(x);
            var tokens := x.doc.tokens;
            (!r.ok && r.message == "")
            <==> (|tokens| == 0 || (tokens[0].oov && IsSubstring(tokens[0].text, KnownText(x.models))))
  {
    VocabularyOutcome(Initial, x.doc.tokens, KnownText(x.models));
  }

  // ---------------------------------------------------------------------
  // Request body.
  // ---------------------------------------------------------------------

  /** One request: each field is a one-element list. */
  datatype Request = Request(modelTypeCodes: seq<string>, booleanFormulas: seq<string>, dates: seq<string>)

  /** A bare request (one model code), a list of requests, or the message body. */
  datatype Body = Single(request: Request) | Many(requests: seq<Request>) | Message(message: seq<string>)

  /** The characters stripped from both ends of the message. */
  const MessageTrim: set<char> := {'.', ' '}

  function RequestFor(code: string, s: State): Request {
    Request([code], [s.formula], [s.date])
  }

  /** `get_request_body`. */
  function RequestBody(s: State): (b: Body)
    ensures !s.ok ==> b == Message([Strip(s.message, MessageTrim)])
    ensures s.ok && |s.codes| == 1 ==> b.Single?
    ensures s.ok && |s.codes| != 1 ==> b.Many? && |b.requests| == |s.codes|
  {
    if s.ok then
      if |s.codes| == 1 then Single(RequestFor(s.codes[0], s))
      else Many(seq(|s.codes|, i requires 0 <= i < |s.codes| => RequestFor(s.codes[i], s)))
    else Message([Strip(s.message, MessageTrim)])
  }

  /** What a client reads back from a request body: the model codes with the
      shared formula and date, if the body is a well-formed success. */
  datatype Reading = Reading(codes: seq<string>, formula: string, date: string)

  predicate WellFormed(q: Request) {
    |q.modelTypeCodes| == 1 && |q.booleanFormulas| == 1 && |q.dates| == 1
  }

  /** Every request of the list is well formed and repeats the first one's formula and date. */
  predicate Uniform(qs: seq<Request>) {
    && |qs| > 0
    && (forall i :: 0 <= i < |qs| ==> WellFormed(qs[i]))
    && (forall i :: 0 <= i < |qs| ==> qs[i].booleanFormulas == qs[0].booleanFormulas && qs[i].dates == qs[0].dates)
  }

  function Interpret(b: Body): Result<Reading, string> {
    match b
    case Single(q) =>
      if WellFormed(q) then Success(Reading(q.modelTypeCodes, q.booleanFormulas[0], q.dates[0]))
      else Failure("malformed request")
    case Many(qs) =>
      if Uniform(qs) then
        Success(Reading(seq(|qs|, i requires 0 <= i < |qs| && WellFormed(qs[i]) => qs[i].modelTypeCodes[0]),
                        qs[0].booleanFormulas[0], qs[0].dates[0]))
      else Failure("malformed request")
    case Message(m) =>
      if |m| == 1 then Failure(m[0]) else Failure("malformed message")
  }

  /** A success body reads back as the state's codes, formula and date; a
      failure body as its stripped message. */
  lemma RequestBodyRoundTrip(s: State)
    ensures s.ok && |s.codes| > 0 ==> Interpret(RequestBody(s)) == Success(Reading(s.codes, s.formula, s.date))
    ensures !s.ok ==> Interpret(RequestBody(s)) == Failure(Strip(s.message, MessageTrim))
  {
    if s.ok && |s.codes| == 1 {
      assert s.codes == [s.codes[0]];
    } else if s.ok && |s.codes| > 1 {
      var qs := RequestBody(s).requests;
      assert Uniform(qs);
      var read := seq(|qs|, i requires 0 <= i < |qs| && WellFormed(qs[i]) => qs[i].modelTypeCodes[0]);
      assert forall i :: 0 <= i < |qs| ==> read[i] == s.codes[i];
      assert read == s.codes;
    }
  }

  /** Stripping removes a leading separator and nothing from a text that
      neither starts nor ends with a stripped character. */
  lemma StripSeparated(o: string)
    requires |o| > 0 && o[0] !in MessageTrim && o[|o| - 1] !in MessageTrim
    ensures Strip(". " + o, MessageTrim) == o
  {
    var m := ". " + o;
    assert m[1..] == " " + o;
    assert (" " + o)[1..] == o;
    assert StripLeft(o, MessageTrim) == o;
  }

  lemma OovMessageEnds(word: string)
    ensures var o := OovMessage(word); |o| > 0 && o[0] == 'P' && o[|o| - 1] == '!'
  {
  }

  /** The pipeline stops at an unknown out-of-vocabulary word with that
      word's message as the only one. */
  lemma UnknownWordRejects(x: Inputs)
    requires var k := FirstOov(x.doc.tokens);
             k < |x.doc.tokens| && !IsSubstring(x.doc.tokens[k].text, KnownText(x.models))
    ensures var k := FirstOov(x.doc.tokens);
            !Validate(x).ok && Validate(x).message == ". " + OovMessage(x.doc.tokens[k].text)
  {
    VocabularyOutcome(Initial, x.doc.tokens, KnownText(x.models));
  }

  /** A prompt whose first out-of-vocabulary word is unknown gets exactly the
      message naming that word. */
  lemma UnknownWordBody(x: Inputs)
    requires var k := FirstOov(x.doc.tokens);
             k < |x.doc.tokens| && !IsSubstring(x.doc.tokens[k].text, KnownText(x.models))
    ensures var k := FirstOov(x.doc.tokens);
            RequestBody(Validate(x)) == Message([OovMessage(x.doc.tokens[k].text)])
  {
    var word := x.doc.tokens[FirstOov(x.doc.tokens)].text;
    UnknownWordRejects(x);
    OovMessageEnds(word);
    StripSeparated(OovMessage(word));
  }
}

=== FILE: wrappers.dfy ===
/** Failure-compatible result type used for the Python exception paths of the core. */
module Wrappers {

  /** Either a computed value or the failure that interrupted the computation. */
  datatype Result<+T, +E> = Success(value: T) | Failure(error: E) {

    predicate IsFailure() {
      Failure?
    }

    function PropagateFailure<U>(): Result<U, E>
      requires Failure?
    {
      Failure(error)
    }

    function Extract(): T
      requires Success?
    {
      value
    }
  }
}
